=== FILE: README.md ===
# ramenbot spider core in Dafny

This project models the scraping logic of `ramenbot/spiders/ramendb.py`, a
Scrapy crawler for the ramen review site ramendb.supleks.jp, and proves
properties of that model. The spider walks the site's listing pages. It
follows links to shop ("business"), review and user pages. It turns each such
page into one record: a `BusinessItem`, a `ReviewItem` or a `UserItem`.

What is modelled:

- **Normalize** (`normalize.dfy`): the module-level helpers.
  - `trim` keeps the stripped form of every non-blank sentence.
  - `convert_to_int_if_int` returns the integer a string spells, or the string unchanged.
  - `extract_user_id` / `extract_business_id` read the first digit run after `u/` / `s/`.
  - The count cleaning of `parse_metadata` removes `,` and strips the unit runs `件`, `人`, `点`, `位` in that order.
- **Text** (`text.dfy`): the Python string built-ins these rely on.
  - `strip`, `lstrip` and `rstrip` with a character set, using the Python 2.7 unicode whitespace set.
  - `replace(c, '')`, `split`, `join`, and decimal digit runs.
- **Patterns** and **Rules** (`patterns.dfy`, `rules.dfy`):
  - The five `$`-anchored link patterns, written as predicates on the end of a URL. Each is proved equal to the regular expression's "some prefix, then the pattern" reading.
  - The ordered rule table and first-match dispatch.
- **Guard** (`guard.dfy`): `is_ramendb`. A page that lacks the site header is re-requested with `dont_filter=True` instead of being parsed.
- **Tables** (`tables.dfy`):
  - The two label-to-field mappings and their field lists.
  - The row pass that fills a dictionary from table rows (`Assign`).
- **Business**, **Review**, **User** (`business.dfy`, `review.dfy`, `user.dfy`): the three callbacks.
  - The dictionary-filling loops of `parse_basic_info` and `parse_metadata`, the list-appending loop of `parse_comments`, and the copy loops of `parse_business`, are methods with loop invariants. Each is proved equal to a specification function.
  - The callbacks themselves are methods. `parse_review` and `parse_user` assign the item field by field; `parse_business` builds its directly assigned fields as one map (`TopFields`) and then copies in the two tables.
  - A callback that raises a Python exception returns `Err` with that exception (`TypeError`, `IndexError`, `ValueError`, `AttributeError`).

A page is given by what the CSS/XPath selectors return for it. `extract_first()`
becomes an `Option<string>` and `extract()` becomes a `seq<string>`. An item is
a map from field name to the Python value stored under it.

## Model

| member | source | states |
|---|---|---|
| `Text.LStrip` | ramenbot/spiders/ramendb.py:252 | `lstrip(chars)` never grows the string, and what is left does not start with a stripped character |
| `Text.LStripSuffix` | ramenbot/spiders/ramendb.py:252 | `lstrip` removes only a prefix of stripped characters and keeps the rest unchanged |
| `Text.LStripSkips` | ramenbot/spiders/ramendb.py:252 | stripped characters placed in front of a string do not change the result of `lstrip` |
| `Text.RStrip` | ramenbot/spiders/ramendb.py:188-191 | `rstrip(chars)` never grows the string, and what is left does not end with a stripped character |
| `Text.RStripPrefix` | ramenbot/spiders/ramendb.py:188-191 | `rstrip` removes only a suffix of stripped characters and keeps the rest unchanged |
| `Text.RStripSkips` | ramenbot/spiders/ramendb.py:252 | stripped characters placed after a string do not change the result of `rstrip` |
| `Text.Strip` | ramenbot/spiders/ramendb.py:262-266 | after `strip(chars)` neither end is a stripped character |
| `Text.StripIsInfix` | ramenbot/spiders/ramendb.py:38 | `strip` keeps a contiguous middle part and removes only stripped characters on either side of it |
| `Text.StripAround` | ramenbot/spiders/ramendb.py:262-266 | a non-empty text that neither starts nor ends with a stripped character, with only stripped characters around it, is exactly what `strip` returns |
| `Text.StripUnpadded` | ramenbot/spiders/ramendb.py:38 | a string that is already stripped is returned unchanged |
| `Text.Remove` | ramenbot/spiders/ramendb.py:187 | after `replace(c, '')` the character is gone, and a string without it is unchanged. `RemoveOne` and `RemoveAppend` pin the result down completely |
| `Text.RemoveKeepsOthers` | ramenbot/spiders/ramendb.py:300 | `replace(c, '')` keeps every other character with the same number of occurrences |
| `Text.RemoveOne` | ramenbot/spiders/ramendb.py:187 | on one character, `replace(c, '')` drops it when it is `c` and keeps it otherwise |
| `Text.RemoveAppend` | ramenbot/spiders/ramendb.py:187 | `replace(c, '')` distributes over concatenation, so the kept characters stay in their order |
| `Text.RStripRun` | ramenbot/spiders/ramendb.py:188-191 | `rstrip(u)` removes a whole trailing run of `u`, of any length, and stops at the first other character |
| `Text.Split` | ramenbot/spiders/ramendb.py:252 | `split(sep)` gives one more piece than there are separators, and no piece contains the separator |
| `Text.JoinSplit` | ramenbot/spiders/ramendb.py:252 | joining the pieces of a split with the separator gives back the original string |
| `Text.SplitJoin` | ramenbot/spiders/ramendb.py:252 | splitting a join of separator-free pieces gives back the pieces |
| `Text.SplitPiece` | ramenbot/spiders/ramendb.py:252 | a string without the separator splits into itself alone |
| `Text.SplitPrefix` | ramenbot/spiders/ramendb.py:252 | a separator-free piece followed by the separator becomes the first piece of the split |
| `Text.NatToDigits` | ramenbot/spiders/ramendb.py:25 | `str(n)` of a natural number is a non-empty run of decimal digits |
| `Text.DigitsRoundTrip` | ramenbot/spiders/ramendb.py:25 | reading back the decimal spelling of `n` gives `n` |
| `Text.LeadingDigits` | ramenbot/spiders/ramendb.py:42 | what a greedy `\d+` consumes: the longest digit prefix, followed by a non-digit or the end |
| `Text.LeadingDigitsOf` | ramenbot/spiders/ramendb.py:42 | a digit run followed by a non-digit is exactly what `\d+` consumes |
| `Text.TrailingDigits` | ramenbot/spiders/ramendb.py:116 | the longest digit suffix, preceded by a non-digit or the start |
| `Text.TrailingDigitsOf` | ramenbot/spiders/ramendb.py:116 | a digit run after a non-digit is exactly the trailing digit run |
| `Normalize.Trim` | ramenbot/spiders/ramendb.py:37-38 | `trim` returns no more sentences than it was given, each non-empty and without outer whitespace |
| `Normalize.TrimOne` | ramenbot/spiders/ramendb.py:37-38 | a single sentence is kept in stripped form exactly when it is not blank |
| `Normalize.TrimAppend` | ramenbot/spiders/ramendb.py:37-38 | `trim` works sentence by sentence and in order: it distributes over concatenation |
| `Normalize.TrimClean` | ramenbot/spiders/ramendb.py:37-38 | sentences that are already non-blank and stripped pass through unchanged |
| `Normalize.TrimIdempotent` | ramenbot/spiders/ramendb.py:37-38 | `trim(trim(x)) == trim(x)` |
| `Normalize.DropLast` | ramenbot/spiders/ramendb.py:148 | `xs[:-1]` is the list without its last element, and empty for an empty list |
| `Normalize.ParseInt` | ramenbot/spiders/ramendb.py:25 | `int(s)` succeeds only on a non-blank stripped text that starts with a digit, or with `+` or `-` followed by at least one more character, and whose characters after the first are digits; a negative result needs a leading `-`. So a text such as `x5` is rejected. `ParseIntPadded`, `ParseIntRoundTrip`, `ParseIntDigits` and `ParseIntNegative` give the values |
| `Normalize.ParseIntRoundTrip` | ramenbot/spiders/ramendb.py:25 | `int(str(n)) == n` for every integer |
| `Normalize.ParseIntDigits` | ramenbot/spiders/ramendb.py:25 | a bare digit run reads as its decimal value |
| `Normalize.ParseIntPadded` | ramenbot/spiders/ramendb.py:25 | whitespace around the number and a leading `+` or `-` are accepted, and the digits read as their value, negated after `-` |
| `Normalize.ParseIntPositive` | ramenbot/spiders/ramendb.py:25 | a plus sign followed by a digit run reads as the decimal value |
| `Normalize.ParseIntNegative` | ramenbot/spiders/ramendb.py:25 | a minus sign followed by a digit run reads as the negated decimal value |
| `Normalize.ConvertToIntIfInt` | ramenbot/spiders/ramendb.py:23-29 | the result is an integer exactly when the input is a string that `int()` accepts, and then it is that integer; otherwise the input (`None` included) is returned unchanged |
| `Normalize.ConvertPassesThrough` | ramenbot/spiders/ramendb.py:23-29 | a count that still carries a unit (`5件`) is passed through as a string |
| `Normalize.FindMarkerDigit` | ramenbot/spiders/ramendb.py:42 | finds the leftmost position where the marker is followed by a digit, or reports that there is none |
| `Normalize.ExtractIdAfter` | ramenbot/spiders/ramendb.py:41-46 | `None` raises `TypeError`; every other failure is an `IndexError` |
| `Normalize.ExtractIdAfterSpec` | ramenbot/spiders/ramendb.py:41-46 | on a URL the call succeeds exactly when the marker occurs followed by a digit, and the id is the value of the digit run after the first such occurrence |
| `Normalize.ExtractIdRoundTrip` | ramenbot/spiders/ramendb.py:41-46 | a URL that starts with the marker and the spelling of `n`, followed by a non-digit or the end, yields `n` |
| `Normalize.ExtractUserId` | ramenbot/spiders/ramendb.py:41-42 | `None` raises `TypeError`, a URL without `u/` followed by a digit raises `IndexError`, and an id is never negative. `ExtractIdAfterSpec` with marker `u/` says which id is read |
| `Normalize.ExtractBusinessId` | ramenbot/spiders/ramendb.py:45-46 | `None` raises `TypeError`, a URL without `s/` followed by a digit raises `IndexError`, and an id is never negative. `ExtractIdAfterSpec` with marker `s/` says which id is read |
| `Normalize.CleanCount` | ramenbot/spiders/ramendb.py:187-191 | the cleaned count has no `,`, does not end in `位`, and is a prefix of the separator-free text whose removed tail is made only of unit glyphs |
| `Normalize.CleanCountOf` | ramenbot/spiders/ramendb.py:187-191 | a count followed by runs of `位`, `点`, `人` and `件` of any lengths, in that order, cleans to the bare count: each `rstrip` removes its whole run |
| `Normalize.CleanCountIgnoresComma` | ramenbot/spiders/ramendb.py:187 | a `,` anywhere in the raw count makes no difference to the cleaned count |
| `Normalize.CleanCountSeparatorAndUnit` | ramenbot/spiders/ramendb.py:187-196 | `1,234件` is cleaned and stored as the integer 1234 |
| `Normalize.CleanCountUnitOrder` | ramenbot/spiders/ramendb.py:187-191 | units are stripped in a fixed order, so `5件位` keeps its `件` |
| `Patterns.IdPageIsRegex` | ramenbot/spiders/ramendb.py:116 | the detail-page predicate holds exactly when the URL is some prefix, the marker, a digit run and `.html` |
| `Patterns.IdPageOf` | ramenbot/spiders/ramendb.py:127 | a URL of that shape is accepted, and its id digits are the digit run it was built from |
| `Patterns.IdPageDigits` | ramenbot/spiders/ramendb.py:213 | the id digits of an accepted detail URL are a non-empty digit run |
| `Patterns.AnchoredId` | ramenbot/spiders/ramendb.py:271 | `int(re.findall(marker + r'(\d+)\.html$', url)[0])` succeeds exactly on detail URLs and otherwise raises `IndexError` |
| `Patterns.IdPagesApart` | ramenbot/spiders/ramendb.py:116-133 | two detail patterns whose shorter marker does not end the longer marker never accept the same URL |
| `Patterns.PageQueryIsRegex` | ramenbot/spiders/ramendb.py:112 | the listing-page predicate holds exactly when the URL is some prefix, the path, `?page=` and a digit run |
| `Patterns.PageQueryOf` | ramenbot/spiders/ramendb.py:123 | a URL of that shape is accepted |
| `Guard.IsRamendb` | ramenbot/spiders/ramendb.py:138-140 | a page is genuine exactly when it carries the site header; `ParseBusiness`, `ParseReview` and `ParseUser` state that every other page is only re-requested |
| `Guard.RefetchOf` | ramenbot/spiders/ramendb.py:209-210 | the re-request is for the same URL and bypasses the duplicate filter |
| `Rules.Accepts` | ramenbot/spiders/ramendb.py:110-136 | which links each rule's pattern accepts; `IdPageIsRegex` and `PageQueryIsRegex` tie them to the regular expressions, `AcceptedEnding` and `PatternsDisjoint` state their shape and disjointness |
| `Rules.FirstRule` | ramenbot/spiders/ramendb.py:110-136 | finds the first rule in list order whose pattern accepts the link, or reports that none does |
| `Rules.Dispatch` | ramenbot/spiders/ramendb.py:110-136 | a link handled by a rule is accepted by that rule's pattern, which is one of the table's rules; a dropped link is accepted by no rule |
| `Rules.AcceptedEnding` | ramenbot/spiders/ramendb.py:112-133 | what each pattern forces as the last character of a URL it accepts |
| `Rules.PatternsDisjoint` | ramenbot/spiders/ramendb.py:110-136 | no URL is accepted by two of the five patterns |
| `Rules.DetailsDisjoint` | ramenbot/spiders/ramendb.py:116-133 | no URL is accepted by two of the detail patterns `s/`, `review/` and `u/`, because none of these markers ends another |
| `Rules.PaginationsDisjoint` | ramenbot/spiders/ramendb.py:112-123 | no URL ends in both `search?page=<digits>` and `review?page=<digits>` |
| `Rules.DispatchFirstMatch` | ramenbot/spiders/ramendb.py:110-136 | rules are tried in list order: a link goes to rule `i` exactly when rule `i` accepts it and no earlier rule does, and it is dropped exactly when no rule accepts it |
| `Rules.DispatchUnique` | ramenbot/spiders/ramendb.py:110-136 | since the patterns are disjoint, the rule that accepts a link is the rule that handles it |
| `Rules.DispatchActions` | ramenbot/spiders/ramendb.py:110-136 | detail links are followed and sent to `parse_business`, `parse_review` or `parse_user`; pagination links are followed without a callback; unmatched links produce nothing |
| `Rules.DetailUrlsYieldIds` | ramenbot/spiders/ramendb.py:116-133 | a URL that a detail rule accepts always yields the id its callback reads: the anchored business and review ids, and `extract_user_id` for users |
| `Rules.ExampleBusinessPagination` | ramenbot/spiders/ramendb.py:107 | the start URL is handled by the business pagination rule |
| `Rules.ExampleBusinessDetail` | ramenbot/spiders/ramendb.py:115-118 | the example shop URL is handled by the `parse_business` rule |
| `Rules.ExampleReviewListing` | ramenbot/spiders/ramendb.py:121-123 | the example review listing is handled by the review pagination rule |
| `Rules.ExampleReviewPagination` | ramenbot/spiders/ramendb.py:122-123 | the example second review page is handled by the review pagination rule |
| `Rules.ExampleReviewDetail` | ramenbot/spiders/ramendb.py:126-129 | the example review URL is handled by the `parse_review` rule |
| `Rules.ExampleUserDetail` | ramenbot/spiders/ramendb.py:132-135 | the example user URL is handled by the `parse_user` rule |
| `Tables.BasicInfoTableAgrees` | ramenbot/spiders/ramendb.py:49-80 | the basic-information field list names exactly the fields its label mapping produces |
| `Tables.MetadataTableAgrees` | ramenbot/spiders/ramendb.py:83-98 | the metadata field list names exactly the fields its label mapping produces |
| `Tables.TableFieldsDeclared` | ramenbot/items.py:29-61 | both field lists name fields that `BusinessItem` declares, and no field is in both lists |
| `Tables.FieldOf` | ramenbot/spiders/ramendb.py:169-172 | a row is kept exactly when it has a label that is a key of the mapping, and it is stored under the field the mapping gives for that label |
| `Tables.Assign` | ramenbot/spiders/ramendb.py:167-176 | every key of the filled dictionary was set by some row |
| `Tables.AssignKeys` | ramenbot/spiders/ramendb.py:167-176 | a field is in the dictionary exactly when some row sets it |
| `Tables.AssignLastWins` | ramenbot/spiders/ramendb.py:174-175 | a later row for the same field overwrites an earlier one: the stored value comes from the last row that sets the field |
| `Business.BasicValue` | ramenbot/spiders/ramendb.py:144-165 | what each field of a `.datas` row stores. Menu and remarks keep their cleaned sentences except the last. Prizes keep one joined, cleaned text per award. Any field without its own extractor stores the cell's first text |
| `Business.ParseBasicInfo` | ramenbot/spiders/ramendb.py:167-176 | the loop returns the row pass applied to the `.datas` rows |
| `Business.BasicInfoKeys` | ramenbot/spiders/ramendb.py:167-176 | a field is in `basic_info` exactly when some row's label maps to it, and every such field is in `BUSINESS_BASIC_INFO_FIELDS` |
| `Business.BasicInfoLastWins` | ramenbot/spiders/ramendb.py:174-175 | the value under a field is the one extracted from the last row labelled for it |
| `Business.MetaValue` | ramenbot/spiders/ramendb.py:179-196 | an empty cell gives `None`. Otherwise the cleaned count is a float candidate for the average score. For every other field it is an integer when it spells one, and otherwise the cleaned string |
| `Business.MetaValueExample` | ramenbot/spiders/ramendb.py:187-196 | a review-count cell `1,234件` is stored as 1234 |
| `Business.ParseMetadata` | ramenbot/spiders/ramendb.py:198-207 | the loop returns the row pass applied to the metadata rows |
| `Business.MetadataKeys` | ramenbot/spiders/ramendb.py:198-207 | a field is in `metadata` exactly when some row's label maps to it, even when its value is `None`; every such field is in `BUSINESS_METADATA_FIELDS` |
| `Business.MetadataLastWins` | ramenbot/spiders/ramendb.py:205-206 | the value under a field is the one extracted from the last row labelled for it |
| `Business.CopyListed` | ramenbot/spiders/ramendb.py:233-236 | the copy loop adds exactly the listed fields that were found and leaves every other field of the item unchanged |
| `Business.TablesListed` | ramenbot/spiders/ramendb.py:232-242 | every field either table finds is in its field list, so the copy loops copy all of them |
| `Business.TopKeysDeclared` | ramenbot/spiders/ramendb.py:212-230 | the directly assigned fields are declared by `BusinessItem` and cannot be overwritten by either table |
| `Business.TopFields` | ramenbot/spiders/ramendb.py:212-230 | the thirteen directly assigned fields |
| `Business.ParseBusiness` | ramenbot/spiders/ramendb.py:209-244 | a page without the header gives only a re-request of the same URL. A URL not ending in `s/<digits>.html` raises `IndexError`. Otherwise the item is the directly assigned fields plus the basic-information and metadata dictionaries |
| `Business.BusinessItemShape` | ramenbot/spiders/ramendb.py:212-242 | the business item uses only declared fields and keeps every directly assigned value. It has a table field exactly when a row of that table was labelled for it |
| `Review.NoodleAndSoup` | ramenbot/spiders/ramendb.py:250-252 | a missing label raises `AttributeError`. Unpacking succeeds exactly when the bracket-stripped label has one `/`, and then the noodle and soup joined by `/` give that label back. Any other count raises `ValueError` |
| `Review.NoodleAndSoupRoundTrip` | ramenbot/spiders/ramendb.py:252 | a label written `[noodle/soup]` gives back its two names |
| `Review.NoodleAndSoupExample` | ramenbot/spiders/ramendb.py:273 | `[太麺/醤油]` unpacks to `太麺` and `醤油` |
| `Review.NoodleAndSoupNeedsOneSlash` | ramenbot/spiders/ramendb.py:273 | a label with no `/` or with several cannot be unpacked |
| `Review.PostDate` | ramenbot/spiders/ramendb.py:262-266 | the post date has no outer whitespace |
| `Review.PostDateOf` | ramenbot/spiders/ramendb.py:262-266 | a footer made of blanks, a vertical bar, blanks, a date and blanks yields the date |
| `Review.CommentOf` | ramenbot/spiders/ramendb.py:257-267 | a comment is read exactly when its link yields a user id and its footer has text. The id's exception comes before `AttributeError`. A read comment holds the trimmed paragraphs, that id and the post date |
| `Review.CommentsOf` | ramenbot/spiders/ramendb.py:254-268 | a successful read gives one comment per block, and a failure raises the exception of some block |
| `Review.CommentsOfSpec` | ramenbot/spiders/ramendb.py:254-268 | the comments are read exactly when every block is, one comment per block in page order |
| `Review.CommentsOfFirstError` | ramenbot/spiders/ramendb.py:257-267 | when blocks before `i` are read and block `i` is not, block `i`'s exception is raised: the first failing block decides the exception |
| `Review.CommentsOfAllRead` | ramenbot/spiders/ramendb.py:257-268 | when every block is read, the result is those comments |
| `Review.ParseComments` | ramenbot/spiders/ramendb.py:254-268 | the append loop returns the comments of the blocks, or the first exception |
| `Review.ReviewItemOf` | ramenbot/spiders/ramendb.py:270-283 | a review item has exactly the eleven assigned fields |
| `Review.ReviewKeysDeclared` | ramenbot/items.py:11-26 | every field of a review item is declared by `ReviewItem` |
| `Review.ParseReview` | ramenbot/spiders/ramendb.py:246-283 | a page without the header gives only a re-request. The callback raises exactly when one of its steps does: review id, style, business link, user link, comments. The first failing step decides which exception is raised. Otherwise the page becomes its review item |
| `User.CountsOf` | ramenbot/spiders/ramendb.py:300-301 | one count per cell, with every `,` removed |
| `User.UserKeysDeclared` | ramenbot/items.py:64-76 | the profile, summary and count fields are declared by `UserItem` and are pairwise disjoint |
| `User.ProfileFields` | ramenbot/spiders/ramendb.py:290-293 | the id and the three profile texts are always assigned |
| `User.SummaryFields` | ramenbot/spiders/ramendb.py:295-298 | the summary fields are assigned exactly when the summary table has two cells |
| `User.CountFields` | ramenbot/spiders/ramendb.py:300-306 | the count fields are assigned exactly when the counts table has four cells |
| `User.SummaryFieldsUpdate` | ramenbot/spiders/ramendb.py:295-298 | the two assignments in sequence add the summary block to the item |
| `User.CountFieldsUpdate` | ramenbot/spiders/ramendb.py:303-306 | the four assignments in sequence add the counts block to the item |
| `User.UserItemOf` | ramenbot/spiders/ramendb.py:289-306 | a user item always has the profile fields, and its `user_id` is the id read from the URL |
| `User.UserItemKeys` | ramenbot/spiders/ramendb.py:289-306 | the fields of a user item: the profile fields, plus the summary fields exactly for two cells, plus the count fields exactly for four. All of them are declared |
| `User.UserSummaryValues` | ramenbot/spiders/ramendb.py:296-298 | the average score is the first cell without its trailing `点` run; the last review date is the second cell, stripped |
| `User.UserCountValues` | ramenbot/spiders/ramendb.py:302-306 | each count field holds its cell, without separators, as an integer when it spells one |
| `User.ParseUser` | ramenbot/spiders/ramendb.py:285-308 | a page without the header gives only a re-request. A URL without `u/<digits>` raises `IndexError`. Otherwise the page becomes its user item |

## Left out

- Scrapy itself is not modelled: `CrawlSpider`, `LxmlLinkExtractor`, `Selector`, `Request`, `download_delay`, `allowed_domains` and `start_urls` are library code or settings. A page is given by what its selectors return, and a request is a tagged value. The model also leaves out how the crawler extracts links from a page, removes duplicates and schedules them. In particular, `CrawlSpider` applies its rules to a page even when the callback only re-requests it.
- Floating-point parsing (`convert_to_float_if_float`) is left uninterpreted. `points` and `average_score` hold `FloatOf(text)`, the text that `float()` would be applied to.
- Normalize.ParseInt: reads only surrounding whitespace, an optional sign and ASCII digits. Python 2's `int()` also accepts non-ASCII decimal digits (such as full-width digits) and whitespace between the sign and the digits; the model rejects both.
- Normalize.ConvertToIntIfInt: accepts only surrounding whitespace, an optional sign and ASCII digits. Python 2's `int()` also accepts other Unicode decimal digits (such as full-width digits) and whitespace between the sign and the digits. Those inputs stay strings in the model.
- Patterns.AnchoredId: `$` is read as the end of the URL. Python's `$` also matches just before a final newline, and URLs do not end in one.
- `set_value_if_true` (ramenbot/spiders/ramendb.py:32-34) is never called and is not modelled.
- The `KeyError` that a Scrapy item raises for an undeclared field is not modelled. Instead, `BusinessItemShape`, `ReviewKeysDeclared` and `UserItemKeys` prove that no undeclared field is ever assigned.
- Behaviour of the code a reader may not expect:
  - A metadata row with an empty cell is still stored, with value `None`.
  - A count that becomes empty after cleaning is stored as the empty string. For the average score it is stored as `FloatOf("")`, because `float('')` fails and the string is kept.
  - Unit glyphs are stripped as whole runs, in the order `件`, `人`, `点`, `位`.

=== FILE: base.dfy ===
/** Values that Python code either has or lacks, and calls that either return or raise. */
module Base {

  /** Python's `None`-or-a-value, as returned by a selector's `extract_first()`. */
  datatype Option<+T> = None | Some(value: T) {
    /** `extract_first(default)`: the value, or `default` when there is none. */
    function GetOr(default: T): T {
      match this
      case Some(v) => v
      case None => default
    }
  }

  /** The Python exceptions the spider's callbacks can raise on a page they cannot parse. */
  datatype Exception =
    | TypeError       // a regular expression applied to `None` (a link that is missing)
    | IndexError      // `re.findall(...)[0]` when nothing matched
    | ValueError      // unpacking a style label that does not split into exactly two parts
    | AttributeError  // a string method called on `None` (a text node that is missing)

  /** A call that returns a value or raises one of the exceptions above. */
  datatype Result<+T> = Ok(value: T) | Err(error: Exception)
}

=== FILE: business.dfy ===
/**
 * `parse_business` of ramenbot/spiders/ramendb.py: a business page becomes a
 * `BusinessItem` holding the shop's id (from its URL), its status flags, its
 * names and address, and whatever the two label tables on the page provide.
 * The selectors that pick text out of the page are not modelled; a page is
 * given by what they return.
 */
module Business {
  import opened Base
  import opened Text
  import opened Items
  import opened Normalize
  import opened Patterns
  import opened Tables
  import opened Guard

  /** One row of the `.datas` table, as the per-field selectors see it. */
  datatype BasicRow = BasicRow(
    heading: Option<string>,      // th::text
    cellText: Option<string>,     // td::text
    divTexts: seq<string>,        // td div *::text
    moreTexts: seq<string>,       // p.more *::text
    tagTexts: seq<string>,        // a.tag::text
    anchors: seq<Link>,           // href and label of every a
    awards: seq<seq<string>>)     // span *::text of every p.more > a.award

  /** One row of the `table.key-value` metadata table. */
  datatype MetaRow = MetaRow(
    heading: Option<string>,      // th::text
    cellText: Option<string>,     // td::text
    spanText: Option<string>)     // td > span::text

  /** A business page. */
  datatype BusinessPage = BusinessPage(
    response: Response,
    moved: bool, retired: bool, without: bool, closed: bool,
    shopName: Option<string>,
    branch: Option<string>,
    alternateName: Option<string>,
    ratingTexts: seq<string>,
    prefecture: Option<string>,
    city: Option<string>,
    addressTexts: seq<string>,
    telephone: Option<string>,
    dataRows: seq<BasicRow>,
    metadataRows: seq<MetaRow>)

  /** The basic-information fields with a value extractor of their own. */
  const SpecialFields: set<string> :=
    {"nearest_station", "menu", "comments", "tags", "external_links", "prizes"}

  /** `extract_value` of `parse_basic_info`: what a row stores under `field`. Menus and
      remarks keep their cleaned sentences except the last; the other special fields
      collect all their texts; any other field stores the cell's first text. */
  function BasicValue(row: BasicRow, field: string): (r: Value)
    ensures field == "nearest_station" ==> r == Str(Concat(row.divTexts))
    ensures field in {"menu", "comments"} ==>
      r.Strs? && |r.strs| == (if Trim(row.moreTexts) == [] then 0 else |Trim(row.moreTexts)| - 1) &&
      r.strs == Trim(row.moreTexts)[..|r.strs|] && forall i :: 0 <= i < |r.strs| ==> Clean(r.strs[i])
    ensures field == "tags" ==> r == Strs(row.tagTexts)
    ensures field == "external_links" ==> r == Links(row.anchors)
    ensures field == "prizes" ==>
      r.Strs? && |r.strs| == |row.awards| &&
      forall i :: 0 <= i < |r.strs| ==> r.strs[i] == Concat(Trim(row.awards[i]))
    ensures field !in SpecialFields ==> r == OptStr(row.cellText)
  {
    if field == "nearest_station" then Str(Concat(row.divTexts))
    else if field == "menu" || field == "comments" then Strs(DropLast(Trim(row.moreTexts)))
    else if field == "tags" then Strs(row.tagTexts)
    else if field == "external_links" then Links(row.anchors)
    else if field == "prizes" then
      Strs(seq(|row.awards|, i requires 0 <= i < |row.awards| => Concat(Trim(row.awards[i]))))
    else OptStr(row.cellText)
  }

  /** What one `.datas` row contributes to `basic_info`. */
  function BasicEntry(row: BasicRow): Entry {
    match FieldOf(BasicInfoMapping, row.heading)
    case None => Skip
    case Some(f) => Set(f, BasicValue(row, f))
  }

  function BasicEntries(rows: seq<BasicRow>): (es: seq<Entry>)
    ensures |es| == |rows| && forall i :: 0 <= i < |rows| ==> es[i] == BasicEntry(rows[i])
  {
    seq(|rows|, i requires 0 <= i < |rows| => BasicEntry(rows[i]))
  }

  /** The dictionary `parse_basic_info` returns. */
  function BasicInfoOf(rows: seq<BasicRow>): map<string, Value> {
    Assign(BasicEntries(rows))
  }

  /** `parse_basic_info`: one pass over the rows, skipping those whose label is
      not in the mapping and storing the others under their field. */
  method ParseBasicInfo(rows: seq<BasicRow>) returns (info: map<string, Value>)
    ensures info == BasicInfoOf(rows)
  {
    info := map[];
    for i := 0 to |rows|
      invariant info == Assign(BasicEntries(rows)[..i])
    {
      assert BasicEntries(rows)[..i + 1][..i] == BasicEntries(rows)[..i];
      var key := rows[i].heading;
      if !(key.Some? && key.value in BasicInfoMapping) {
        continue;
      }
      var field := BasicInfoMapping[key.value];
      var value := BasicValue(rows[i], field);
      info := info[field := value];
    }
    assert BasicEntries(rows)[..|rows|] == BasicEntries(rows);
  }

  /** A field is in `basic_info` exactly when some row's label maps to it; every
      such field is listed in `BUSINESS_BASIC_INFO_FIELDS`. */
  lemma BasicInfoKeys(rows: seq<BasicRow>, f: string)
    ensures f in BasicInfoOf(rows) <==>
      exists i :: 0 <= i < |rows| && FieldOf(BasicInfoMapping, rows[i].heading) == Some(f)
    ensures f in BasicInfoOf(rows) ==> f in BasicInfoFields
  {
    var es := BasicEntries(rows);
    AssignKeys(es, f);
    if f in BasicInfoOf(rows) {
      var i :| 0 <= i < |es| && Sets(es[i], f);
      assert FieldOf(BasicInfoMapping, rows[i].heading) == Some(f);
      BasicInfoTableAgrees();
    }
    if exists i :: 0 <= i < |rows| && FieldOf(BasicInfoMapping, rows[i].heading) == Some(f) {
      var i :| 0 <= i < |rows| && FieldOf(BasicInfoMapping, rows[i].heading) == Some(f);
      assert Sets(es[i], f);
    }
  }

  /** A later row with the same field overwrites an earlier one: the value stored is
      the one extracted from the last row whose label maps to the field. */
  lemma BasicInfoLastWins(rows: seq<BasicRow>, i: nat, f: string)
    requires i < |rows| && FieldOf(BasicInfoMapping, rows[i].heading) == Some(f)
    requires forall j :: i < j < |rows| ==> FieldOf(BasicInfoMapping, rows[j].heading) != Some(f)
    ensures f in BasicInfoOf(rows) && BasicInfoOf(rows)[f] == BasicValue(rows[i], f)
  {
    var es := BasicEntries(rows);
    forall j | i < j < |es|
      ensures !Sets(es[j], f)
    {
    }
    AssignLastWins(es, i);
  }

  /** The raw text of a metadata row: the cell text for the ranking, the span text
      otherwise, and the empty string when there is none. */
  function RawCount(row: MetaRow, field: string): string {
    if field == "ranking" then row.cellText.GetOr("") else row.spanText.GetOr("")
  }

  /** `extract_value` of `parse_metadata`: `None` for an empty cell; otherwise the
      cleaned count, as a float for the average score and as an integer when it
      spells one for every other field. */
  function MetaValue(row: MetaRow, field: string): (r: Value)
    ensures RawCount(row, field) == "" ==> r == Null
    ensures RawCount(row, field) != "" && field == "average_score" ==>
      r == FloatOf(CleanCount(RawCount(row, field)))
    ensures RawCount(row, field) != "" && field != "average_score" ==>
      (r.Int? && ParseInt(CleanCount(RawCount(row, field))) == Some(r.i)) ||
      (r == Str(CleanCount(RawCount(row, field))) && ParseInt(r.s).None?)
  {
    var raw := RawCount(row, field);
    if raw == "" then Null
    else
      var value := CleanCount(raw);
      if field == "average_score" then FloatOf(value) else ConvertToIntIfInt(Some(value))
  }

  /** A review-count cell `1,234件` is stored as 1234. */
  lemma MetaValueExample(cellText: Option<string>)
    ensures MetaValue(MetaRow(Some("レビュー件数"), cellText, Some("1,234件")), "review_count") == Int(1234)
  {
    CleanCountSeparatorAndUnit();
  }

  /** What one metadata row contributes to `metadata`. */
  function MetaEntry(row: MetaRow): Entry {
    match FieldOf(MetadataMapping, row.heading)
    case None => Skip
    case Some(f) => Set(f, MetaValue(row, f))
  }

  function MetaEntries(rows: seq<MetaRow>): (es: seq<Entry>)
    ensures |es| == |rows| && forall i :: 0 <= i < |rows| ==> es[i] == MetaEntry(rows[i])
  {
    seq(|rows|, i requires 0 <= i < |rows| => MetaEntry(rows[i]))
  }

  /** The dictionary `parse_metadata` returns. */
  function MetadataOf(rows: seq<MetaRow>): map<string, Value> {
    Assign(MetaEntries(rows))
  }

  /** `parse_metadata`: the same pass as `parse_basic_info`, over the metadata table. */
  method ParseMetadata(rows: seq<MetaRow>) returns (metadata: map<string, Value>)
    ensures metadata == MetadataOf(rows)
  {
    metadata := map[];
    for i := 0 to |rows|
      invariant metadata == Assign(MetaEntries(rows)[..i])
    {
      assert MetaEntries(rows)[..i + 1][..i] == MetaEntries(rows)[..i];
      var key := rows[i].heading;
      if !(key.Some? && key.value in MetadataMapping) {
        continue;
      }
      var field := MetadataMapping[key.value];
      var value := MetaValue(rows[i], field);
      metadata := metadata[field := value];
    }
    assert MetaEntries(rows)[..|rows|] == MetaEntries(rows);
  }

  /** A field is in `metadata` exactly when some row's label maps to it, even when
      the row's cell is empty and the value stored is `None`. */
  lemma MetadataKeys(rows: seq<MetaRow>, f: string)
    ensures f in MetadataOf(rows) <==>
      exists i :: 0 <= i < |rows| && FieldOf(MetadataMapping, rows[i].heading) == Some(f)
    ensures f in MetadataOf(rows) ==> f in MetadataFields
  {
    var es := MetaEntries(rows);
    AssignKeys(es, f);
    if f in MetadataOf(rows) {
      var i :| 0 <= i < |es| && Sets(es[i], f);
      assert FieldOf(MetadataMapping, rows[i].heading) == Some(f);
      MetadataTableAgrees();
    }
    if exists i :: 0 <= i < |rows| && FieldOf(MetadataMapping, rows[i].heading) == Some(f) {
      var i :| 0 <= i < |rows| && FieldOf(MetadataMapping, rows[i].heading) == Some(f);
      assert Sets(es[i], f);
    }
  }

  /** The last metadata row whose label maps to a field decides its value. */
  lemma MetadataLastWins(rows: seq<MetaRow>, i: nat, f: string)
    requires i < |rows| && FieldOf(MetadataMapping, rows[i].heading) == Some(f)
    requires forall j :: i < j < |rows| ==> FieldOf(MetadataMapping, rows[j].heading) != Some(f)
    ensures f in MetadataOf(rows) && MetadataOf(rows)[f] == MetaValue(rows[i], f)
  {
    var es := MetaEntries(rows);
    forall j | i < j < |es|
      ensures !Sets(es[j], f)
    {
    }
    AssignLastWins(es, i);
  }

  /** The entries of `found` whose field is listed in `fields`. */
  function Listed(found: map<string, Value>, fields: seq<string>): (m: map<string, Value>)
    ensures m.Keys <= found.Keys
    ensures forall f :: f in m ==> f in fields && m[f] == found[f]
  {
    map f | f in found && f in fields :: found[f]
  }

  /** The copy loops of `parse_business`: every listed field that was found is
      assigned to the item, and nothing else changes. */
  method CopyListed(item: Item, fields: seq<string>, found: map<string, Value>) returns (r: Item)
    ensures r == item + Listed(found, fields)
  {
    r := item;
    for k := 0 to |fields|
      invariant forall f :: f in r <==> f in item || (f in found && f in fields[..k])
      invariant forall f :: f in r ==> r[f] == if f in found && f in fields[..k] then found[f] else item[f]
    {
      assert fields[..k + 1] == fields[..k] + [fields[k]];
      var field := fields[k];
      if field !in found {
        continue;
      }
      r := r[field := found[field]];
    }
    assert fields[..|fields|] == fields;
  }

  /** Every field either table finds is listed, so the copy loops copy all of them. */
  lemma TablesListed(dataRows: seq<BasicRow>, metadataRows: seq<MetaRow>)
    ensures Listed(BasicInfoOf(dataRows), BasicInfoFields) == BasicInfoOf(dataRows)
    ensures Listed(MetadataOf(metadataRows), MetadataFields) == MetadataOf(metadataRows)
  {
    var basic, metadata := BasicInfoOf(dataRows), MetadataOf(metadataRows);
    forall f | f in basic
      ensures f in BasicInfoFields
    {
      BasicInfoKeys(dataRows, f);
    }
    ListedAll(basic, BasicInfoFields);
    forall f | f in metadata
      ensures f in MetadataFields
    {
      MetadataKeys(metadataRows, f);
    }
    ListedAll(metadata, MetadataFields);
  }

  /** Listing every field that was found keeps all of them. */
  lemma ListedAll(found: map<string, Value>, fields: seq<string>)
    requires forall f :: f in found ==> f in fields
    ensures Listed(found, fields) == found
  {
  }

  /** The fields `parse_business` assigns directly. */
  const TopKeys: set<string> := {
    "business_id", "has_moved", "has_retired", "has_without", "has_closed",
    "name", "branch", "alternate_name", "points", "prefecture", "city",
    "address", "phone_number"
  }

  /** The directly assigned fields are declared by `BusinessItem` and are not
      among the fields either table can provide. */
  lemma TopKeysDeclared()
    ensures TopKeys <= BusinessItemFields
    ensures forall f :: f in TopKeys ==> f !in BasicInfoFields && f !in MetadataFields
  {
  }

  /** The fields `parse_business` assigns directly, from the page and its id. */
  function TopFields(page: BusinessPage, id: int): (m: Item)
    ensures m.Keys == TopKeys
  {
    map[
      "business_id" := Int(id),
      "has_moved" := Bool(page.moved),
      "has_retired" := Bool(page.retired),
      "has_without" := Bool(page.without),
      "has_closed" := Bool(page.closed),
      "name" := OptStr(page.shopName),
      "branch" := OptStr(page.branch),
      "alternate_name" := OptStr(page.alternateName),
      "points" := FloatOf(Concat(page.ratingTexts)),
      "prefecture" := OptStr(page.prefecture),
      "city" := OptStr(page.city),
      "address" := Str(Concat(page.addressTexts)),
      "phone_number" := OptStr(page.telephone)
    ]
  }

  /** `parse_business`. A page without the site header is fetched again; a URL that
      does not end in `s/<digits>.html` raises `IndexError`; otherwise the item holds
      the directly assigned fields and exactly the fields the two tables found. */
  method ParseBusiness(page: BusinessPage) returns (r: Result<Outcome>)
    ensures !IsRamendb(page.response) ==> r == Ok(RefetchOf(page.response))
    ensures IsRamendb(page.response) && !IdPage(page.response.url, "s/") ==> r == Err(IndexError)
    ensures IsRamendb(page.response) && IdPage(page.response.url, "s/") ==>
      var id := DigitsValue(IdPageDigits(page.response.url, "s/"));
      r.Ok? && r.value.Scraped? &&
      r.value.item == TopFields(page, id) + BasicInfoOf(page.dataRows) + MetadataOf(page.metadataRows)
  {
    if !IsRamendb(page.response) {
      return Ok(RefetchOf(page.response));
    }
    var id := AnchoredId(page.response.url, "s/");
    if id.Err? {
      return Err(id.error);
    }
    var business := TopFields(page, id.value);
    var basicInfo := ParseBasicInfo(page.dataRows);
    business := CopyListed(business, BasicInfoFields, basicInfo);
    var metadata := ParseMetadata(page.metadataRows);
    business := CopyListed(business, MetadataFields, metadata);
    TablesListed(page.dataRows, page.metadataRows);
    return Ok(Scraped(business));
  }

  /** A scraped business item only uses fields `BusinessItem` declares, keeps every
      directly assigned field as assigned, and has a table field exactly when a row
      of that table was labelled for it. */
  lemma BusinessItemShape(page: BusinessPage, id: int, f: string)
    ensures var item := TopFields(page, id) + BasicInfoOf(page.dataRows) + MetadataOf(page.metadataRows);
      (f in item ==> f in BusinessItemFields) &&
      (f in TopKeys ==> item[f] == TopFields(page, id)[f]) &&
      (f in item <==>
        (f in TopKeys ||
         (exists i :: 0 <= i < |page.dataRows| && FieldOf(BasicInfoMapping, page.dataRows[i].heading) == Some(f)) ||
         (exists i :: 0 <= i < |page.metadataRows| && FieldOf(MetadataMapping, page.metadataRows[i].heading) == Some(f))))
  {
    BasicInfoKeys(page.dataRows, f);
    MetadataKeys(page.metadataRows, f);
    TableFieldsDeclared();
    TopKeysDeclared();
  }
}

=== FILE: guard.dfy ===
/**
 * The page-identity guard shared by the three callbacks (ramenbot/spiders/ramendb.py,
 * `is_ramendb`) and what a callback hands back to the crawler: either a
 * forced re-fetch of the same URL or a scraped item.
 */
module Guard {
  import opened Items

  /** A fetched page, as far as the guard looks at it: its URL and whether the
      site-wide `div#header-sites` element is present. */
  datatype Response = Response(url: string, hasHeaderSites: bool)

  /** `scrapy.http.Request(url, dont_filter=...)`. */
  datatype Request = Request(url: string, dontFilter: bool)

  /** What a `parse_*` callback returns. */
  datatype Outcome = Refetch(request: Request) | Scraped(item: Item)

  /** `is_ramendb`: the page carries the site's header, so it was not mis-served. */
  predicate IsRamendb(response: Response) {
    response.hasHeaderSites
  }

  /** `Request(url=response.url, dont_filter=True)`: fetch the same page again,
      bypassing the duplicate filter. */
  function RefetchOf(response: Response): (r: Outcome)
    ensures r.Refetch? && r.request.url == response.url && r.request.dontFilter
  {
    Refetch(Request(response.url, true))
  }
}

=== FILE: items.dfy ===
/**
 * The scraped records of ramenbot/items.py. A Scrapy item is a dictionary
 * whose keys must be among the fields its class declares (assigning any
 * other key raises `KeyError`); here an item is a map from field name to
 * the Python value stored under it.
 */
module Items {
  import opened Base

  /** One external link of a business: its `href` and the text of its label span. */
  datatype Link = Link(url: Option<string>, name: Option<string>)

  /** One comment under a review. */
  datatype Comment = Comment(text: seq<string>, userId: int, postDate: string)

  /** The Python values the spider stores in an item. */
  datatype Value =
    | Null                        // None
    | Bool(b: bool)
    | Int(i: int)
    | Str(s: string)
    | FloatOf(text: string)       // convert_to_float_if_float(text), left uninterpreted
    | Strs(strs: seq<string>)     // a list of strings
    | Links(links: seq<Link>)     // the list of {url, name} dictionaries
    | Comments(comments: seq<Comment>)

  /** A text node that may be missing: `None` or the string. */
  function OptStr(o: Option<string>): Value {
    match o
    case None => Null
    case Some(s) => Str(s)
  }

  type Item = map<string, Value>

  /** The fields `BusinessItem` declares. */
  const BusinessItemFields: set<string> := {
    "business_id", "has_moved", "has_retired", "has_without", "has_closed",
    "name", "branch", "alternate_name", "points", "prefecture", "city",
    "address", "phone_number", "business_hours", "holidays", "seats",
    "smoking", "nearest_station", "access", "parking", "open_date", "menu",
    "comments", "prizes", "tags", "external_links", "review_count",
    "review_user_count", "average_score", "ranking", "like_count"
  }

  /** The fields `ReviewItem` declares. */
  const ReviewItemFields: set<string> := {
    "review_id", "item_name", "is_delivery", "noodle_type", "soup_type",
    "score", "attention", "text", "business_id", "user_id", "post_date",
    "comments", "iine_count"
  }

  /** The fields `UserItem` declares. */
  const UserItemFields: set<string> := {
    "user_id", "name", "properties", "description", "average_score",
    "last_review_date", "links", "review_count", "review_business_count",
    "like_count", "iine_count"
  }
}

=== FILE: normalize.dfy ===
/**
 * The module-level helpers of ramenbot/spiders/ramendb.py: `trim`,
 * `convert_to_int_if_int`, `extract_user_id`, `extract_business_id`, and the
 * cleaning that `parse_metadata` applies to a count before coercing it.
 */
module Normalize {
  import opened Base
  import opened Text
  import opened Items

  /** What `strip()` leaves of a non-blank string: non-empty, no outer whitespace. */
  predicate Clean(s: string) {
    s != [] && Unpadded(s, Whitespace)
  }

  /** `trim(sentences)`: the stripped form of every sentence that is not blank, in order. */
  function Trim(sentences: seq<string>): (r: seq<string>)
    ensures |r| <= |sentences|
    ensures forall i :: 0 <= i < |r| ==> Clean(r[i])
  {
    if sentences == [] then []
    else
      var s := StripSpace(sentences[0]);
      (if s == [] then [] else [s]) + Trim(sentences[1..])
  }

  /** One sentence: kept, stripped, exactly when it is not blank. */
  lemma TrimOne(sentence: string)
    ensures Trim([sentence]) == if StripSpace(sentence) == [] then [] else [StripSpace(sentence)]
  {
    assert [sentence][1..] == [];
  }

  /** `trim` works sentence by sentence: it distributes over concatenation. */
  lemma {:induction false} TrimAppend(xs: seq<string>, ys: seq<string>)
    ensures Trim(xs + ys) == Trim(xs) + Trim(ys)
  {
    if xs != [] {
      var x, rest := xs[0], xs[1..];
      calc {
        Trim(xs + ys);
        { assert xs + ys == [x] + (rest + ys); }
        Trim([x] + (rest + ys));
        { TrimCons(x, rest + ys); }
        Trim([x]) + Trim(rest + ys);
        { TrimAppend(rest, ys); }
        Trim([x]) + (Trim(rest) + Trim(ys));
        (Trim([x]) + Trim(rest)) + Trim(ys);
        { TrimCons(x, rest); }
        Trim([x] + rest) + Trim(ys);
        { assert xs == [x] + rest; }
        Trim(xs) + Trim(ys);
      }
    } else {
      assert xs + ys == ys;
    }
  }

  /** One step of `trim`: the first sentence, if not blank, followed by the rest trimmed. */
  lemma TrimCons(sentence: string, rest: seq<string>)
    ensures Trim([sentence] + rest) == Trim([sentence]) + Trim(rest)
  {
    assert ([sentence] + rest)[1..] == rest;
    assert [sentence][1..] == [];
  }

  /** Sentences that are already clean pass through unchanged. */
  lemma {:induction false} TrimClean(xs: seq<string>)
    requires forall i :: 0 <= i < |xs| ==> Clean(xs[i])
    ensures Trim(xs) == xs
  {
    if xs != [] {
      StripUnpadded(xs[0], Whitespace);
      TrimClean(xs[1..]);
    }
  }

  /** Trimming twice is trimming once. */
  lemma TrimIdempotent(xs: seq<string>)
    ensures Trim(Trim(xs)) == Trim(xs)
  {
    TrimClean(Trim(xs));
  }

  /** `xs[:-1]`: every element but the last; empty stays empty. */
  function DropLast<T>(xs: seq<T>): (r: seq<T>)
    ensures |r| == if xs == [] then 0 else |xs| - 1
    ensures r == xs[..|r|]
  {
    if xs == [] then [] else xs[..|xs| - 1]
  }

  /** `int(s)` on a string: surrounding whitespace, an optional sign, then decimal digits. */
  function ParseInt(s: string): (r: Option<int>)
    ensures r.Some? ==> StripSpace(s) != [] && AllDigits(StripSpace(s)[1..])
    ensures r.Some? ==> var t := StripSpace(s);
      t != [] && (IsDigit(t[0]) || ((t[0] == '+' || t[0] == '-') && |t| >= 2))
    ensures r.Some? && r.value < 0 ==> StripSpace(s)[0] == '-'
  {
    var t := StripSpace(s);
    if |t| >= 2 && (t[0] == '+' || t[0] == '-') && AllDigits(t[1..]) then
      var v: int := DigitsValue(t[1..]);
      Some(if t[0] == '-' then -v else v)
    else if t != [] && AllDigits(t) then
      Some(DigitsValue(t))
    else
      None
  }

  /** `str(n)`. */
  function IntToString(n: int): string {
    if n < 0 then "-" + NatToDigits(-n) else NatToDigits(n)
  }

  /** Every integer reads back from its own spelling. */
  lemma {:induction false} ParseIntRoundTrip(n: int)
    ensures ParseInt(IntToString(n)) == Some(n)
  {
    if n < 0 {
      var d := NatToDigits(-n);
      calc {
        ParseInt(IntToString(n));
        ParseInt("-" + d);
        { ParseIntNegative(d); }
        Some(-(DigitsValue(d) as int));
        { DigitsRoundTrip(-n); }
        Some(n);
      }
    } else {
      var d := NatToDigits(n);
      calc {
        ParseInt(IntToString(n));
        ParseInt(d);
        { ParseIntDigits(d); }
        Some(DigitsValue(d) as int);
        { DigitsRoundTrip(n); }
        Some(n);
      }
    }
  }

  /** A bare run of digits reads as its decimal value. */
  lemma ParseIntDigits(d: string)
    requires d != [] && AllDigits(d)
    ensures ParseInt(d) == Some(DigitsValue(d))
  {
    assert IsDigit(d[0]) && IsDigit(d[|d| - 1]);
    StripUnpadded(d, Whitespace);
  }

  /** A minus sign and a run of digits read as the negated decimal value. */
  lemma ParseIntNegative(d: string)
    requires d != [] && AllDigits(d)
    ensures ParseInt("-" + d) == Some(-(DigitsValue(d) as int))
  {
    var t := "-" + d;
    assert t[0] == '-' && t[1..] == d && t[|t| - 1] == d[|d| - 1];
    assert IsDigit(d[|d| - 1]);
    StripUnpadded(t, Whitespace);
  }

  /** A plus sign and a run of digits read as the decimal value. */
  lemma ParseIntPositive(d: string)
    requires d != [] && AllDigits(d)
    ensures ParseInt("+" + d) == Some(DigitsValue(d) as int)
  {
    var t := "+" + d;
    assert t[0] == '+' && t[1..] == d && t[|t| - 1] == d[|d| - 1];
    assert IsDigit(d[|d| - 1]);
    StripUnpadded(t, Whitespace);
  }

  /** Whitespace around the number and a leading `+` or `-` are accepted:
      the digits read as their value, negated after a `-`. */
  lemma ParseIntPadded(w1: string, sign: string, d: string, w2: string)
    requires AllIn(w1, Whitespace) && AllIn(w2, Whitespace)
    requires sign == "" || sign == "+" || sign == "-"
    requires d != [] && AllDigits(d)
    ensures ParseInt(w1 + sign + d + w2) ==
      Some(if sign == "-" then -(DigitsValue(d) as int) else DigitsValue(d) as int)
  {
    var core := sign + d;
    SignedCoreUnpadded(sign, d);
    assert w1 + sign + d + w2 == w1 + core + w2;
    StripAround(w1, core, w2, Whitespace);
    StripUnpadded(core, Whitespace);
    assert ParseInt(w1 + sign + d + w2) == ParseInt(core);
    if sign == "" {
      assert core == d;
      ParseIntDigits(d);
    } else if sign == "+" {
      ParseIntPositive(d);
    } else {
      ParseIntNegative(d);
    }
  }

  /** An optional sign followed by digits has no outer whitespace. */
  lemma SignedCoreUnpadded(sign: string, d: string)
    requires sign == "" || sign == "+" || sign == "-"
    requires d != [] && AllDigits(d)
    ensures sign + d != [] && Unpadded(sign + d, Whitespace)
  {
    var core := sign + d;
    assert IsDigit(d[0]) && IsDigit(d[|d| - 1]);
    assert core[|core| - 1] == d[|d| - 1];
    assert core[0] == if sign == "" then d[0] else sign[0];
  }

  /** `convert_to_int_if_int(s)`: the integer `s` spells, or `s` itself (`None` included). */
  function ConvertToIntIfInt(s: Option<string>): (r: Value)
    ensures r.Int? || r == OptStr(s)
    ensures r.Int? <==> s.Some? && ParseInt(s.value).Some?
    ensures s.Some? && r.Int? ==> ParseInt(s.value) == Some(r.i)
  {
    match s
    case None => Null
    case Some(text) =>
      match ParseInt(text)
      case Some(n) => Int(n)
      case None => Str(text)
  }

  /** `marker` occurs at `i` in `s` and is followed by a digit: where `marker(\d+)` matches. */
  predicate MarkerDigitAt(s: string, marker: string, i: int) {
    0 <= i && i + |marker| < |s| && s[i..i + |marker|] == marker && IsDigit(s[i + |marker|])
  }

  /** The leftmost position at or after `from` where `marker(\d+)` matches. */
  function FindMarkerDigit(s: string, marker: string, from: nat): (r: Option<nat>)
    requires from <= |s|
    ensures r.Some? ==> from <= r.value && MarkerDigitAt(s, marker, r.value)
    ensures r.Some? ==> forall j :: from <= j < r.value ==> !MarkerDigitAt(s, marker, j)
    ensures r.None? ==> forall j :: from <= j ==> !MarkerDigitAt(s, marker, j)
    decreases |s| - from
  {
    if from + |marker| >= |s| then None
    else if MarkerDigitAt(s, marker, from) then Some(from)
    else FindMarkerDigit(s, marker, from + 1)
  }

  /**
   * `int(re.findall(marker + r'(\d+)', url)[0])`: the value of the digit run
   * after the first occurrence of `marker` that a digit follows. A missing
   * URL raises `TypeError`; a URL with no such occurrence raises `IndexError`.
   */
  function ExtractIdAfter(url: Option<string>, marker: string): (r: Result<int>)
    ensures url.None? ==> r == Err(TypeError)
    ensures url.Some? && r.Err? ==> r.error == IndexError
    ensures r.Ok? ==> r.value >= 0
  {
    match url
    case None => Err(TypeError)
    case Some(u) =>
      match FindMarkerDigit(u, marker, 0)
      case None => Err(IndexError)
      case Some(i) => Ok(DigitsValue(LeadingDigits(u[i + |marker|..])))
  }

  /** On a URL, the call succeeds exactly when the marker occurs followed by a digit,
      and the id is the value of the digit run after the first such occurrence. */
  lemma ExtractIdAfterSpec(url: string, marker: string)
    ensures ExtractIdAfter(Some(url), marker).Ok? <==> exists i :: MarkerDigitAt(url, marker, i)
    ensures ExtractIdAfter(Some(url), marker).Ok? ==>
      exists i :: MarkerDigitAt(url, marker, i) &&
        (forall j :: 0 <= j < i ==> !MarkerDigitAt(url, marker, j)) &&
        ExtractIdAfter(Some(url), marker).value == DigitsValue(LeadingDigits(url[i + |marker|..]))
  {
    var r := ExtractIdAfter(Some(url), marker);
    var found := FindMarkerDigit(url, marker, 0);
    if found.Some? {
      var i := found.value;
      assert r == Ok(DigitsValue(LeadingDigits(url[i + |marker|..])));
      assert MarkerDigitAt(url, marker, i);
      assert forall j :: 0 <= j < i ==> !MarkerDigitAt(url, marker, j);
    } else {
      assert r == Err(IndexError);
      assert forall j :: 0 <= j ==> !MarkerDigitAt(url, marker, j);
    }
  }

  /** A URL that starts with the marker and the spelling of `n` yields `n`. */
  lemma ExtractIdRoundTrip(marker: string, n: nat, rest: string)
    requires rest == [] || !IsDigit(rest[0])
    ensures ExtractIdAfter(Some(marker + NatToDigits(n) + rest), marker) == Ok(n)
  {
    var d := NatToDigits(n);
    var url := marker + d + rest;
    assert url[..|marker|] == marker && url[|marker|] == d[0];
    assert MarkerDigitAt(url, marker, 0);
    assert url[|marker|..] == d + rest;
    LeadingDigitsOf(d, rest);
    DigitsRoundTrip(n);
  }

  /** `extract_user_id(url)`. */
  function ExtractUserId(url: Option<string>): (r: Result<int>)
    ensures url.None? ==> r == Err(TypeError)
    ensures url.Some? && r.Err? ==> r.error == IndexError
    ensures r.Ok? ==> r.value >= 0
  {
    ExtractIdAfter(url, "u/")
  }

  /** `extract_business_id(url)`. */
  function ExtractBusinessId(url: Option<string>): (r: Result<int>)
    ensures url.None? ==> r == Err(TypeError)
    ensures url.Some? && r.Err? ==> r.error == IndexError
    ensures r.Ok? ==> r.value >= 0
  {
    ExtractIdAfter(url, "s/")
  }

  /** The unit glyphs a count may end with: reviews (件), people (人), points (点), rank (位). */
  const CountUnits: set<char> := {'件', '人', '点', '位'}

  /**
   * `value.replace(',', '').rstrip('件').rstrip('人').rstrip('点').rstrip('位')`:
   * thousands separators removed, then each unit's trailing run removed in turn.
   */
  function CleanCount(raw: string): (r: string)
    ensures ',' !in r
    ensures r == [] || r[|r| - 1] != '位'
    ensures |r| <= |Remove(raw, ',')| && r == Remove(raw, ',')[..|r|]
    ensures AllIn(Remove(raw, ',')[|r|..], CountUnits)
  {
    var s0 := Remove(raw, ',');
    var s1 := RStrip(s0, {'件'});
    var s2 := RStrip(s1, {'人'});
    var s3 := RStrip(s2, {'点'});
    var s4 := RStrip(s3, {'位'});
    RStripPrefix(s0, {'件'});
    RStripPrefix(s1, {'人'});
    RStripPrefix(s2, {'点'});
    RStripPrefix(s3, {'位'});
    StripChain(s0, s0, s1, {'件'}, CountUnits);
    StripChain(s0, s1, s2, {'人'}, CountUnits);
    StripChain(s0, s2, s3, {'点'}, CountUnits);
    StripChain(s0, s3, s4, {'位'}, CountUnits);
    assert s4 == s0[..|s4|];
    s4
  }

  /**
   * Unit runs are removed from the end inward: the `件` run goes first, then the
   * `人` run before it, then `点`, then `位`. So a count `d` followed by runs of
   * `位`, `点`, `人` and `件`, in that order and each of any length, cleans to `d`,
   * provided `d` holds no separator and does not itself end in a unit.
   */
  lemma CleanCountOf(d: string, a: nat, b: nat, c: nat, e: nat)
    requires ',' !in d
    requires d == [] || d[|d| - 1] !in CountUnits
    ensures CleanCount(d + Rep('位', e) + Rep('点', c) + Rep('人', b) + Rep('件', a)) == d
  {
    var s3 := d + Rep('位', e);
    var s2 := s3 + Rep('点', c);
    var s1 := s2 + Rep('人', b);
    var s0 := s1 + Rep('件', a);
    RunsEnd(d, '位', e, CountUnits - {'位'});
    RunsEnd(s3, '点', c, CountUnits - {'位', '点'});
    RunsEnd(s2, '人', b, {'件'});
    RunNoSeparator(d, '位', e);
    RunNoSeparator(s3, '点', c);
    RunNoSeparator(s2, '人', b);
    RunNoSeparator(s1, '件', a);
    calc {
      CleanCount(s0);
      RStrip(RStrip(RStrip(RStrip(s0, {'件'}), {'人'}), {'点'}), {'位'});
      { RStripRun(s1, '件', a); }
      RStrip(RStrip(RStrip(s1, {'人'}), {'点'}), {'位'});
      { RStripRun(s2, '人', b); }
      RStrip(RStrip(s2, {'点'}), {'位'});
      { RStripRun(s3, '点', c); }
      RStrip(s3, {'位'});
      { RStripRun(d, '位', e); }
      d;
    }
  }

  /** Appending a run of `u` to a string that ends outside `cs` (where `u` is not in `cs`)
      again gives a string that ends outside `cs`. */
  lemma RunsEnd(p: string, u: char, n: nat, cs: set<char>)
    requires p == [] || p[|p| - 1] !in cs + {u}
    requires u !in cs
    ensures var s := p + Rep(u, n); s == [] || s[|s| - 1] !in cs
  {
    var s := p + Rep(u, n);
    if n > 0 {
      assert s[|s| - 1] == Rep(u, n)[n - 1];
    } else {
      assert s == p;
    }
  }

  /** A run of a glyph other than `,` adds no separator. */
  lemma RunNoSeparator(p: string, u: char, n: nat)
    requires ',' !in p && u != ','
    ensures ',' !in p + Rep(u, n)
  {
    assert forall x :: x in p + Rep(u, n) ==> x in p || x == u;
  }

  /** Separators anywhere in the raw text make no difference to the cleaned count. */
  lemma CleanCountIgnoresComma(p: string, q: string)
    ensures CleanCount(p + "," + q) == CleanCount(p + q)
  {
    calc {
      Remove(p + "," + q, ',');
      { RemoveAppend(p + ",", q, ','); RemoveAppend(p, ",", ','); }
      Remove(p, ',') + Remove(",", ',') + Remove(q, ',');
      { RemoveOne(',', ','); }
      Remove(p, ',') + Remove(q, ',');
      { RemoveAppend(p, q, ','); }
      Remove(p + q, ',');
    }
  }

  /** A count with a thousands separator and a unit reads as its number. */
  lemma CleanCountSeparatorAndUnit()
    ensures ConvertToIntIfInt(Some(CleanCount("1,234件"))) == Int(1234)
  {
    var s := "1234件";
    calc {
      CleanCount("1,234件");
      RStrip(RStrip(RStrip(RStrip(Remove("1,234件", ','), {'件'}), {'人'}), {'点'}), {'位'});
      { RemoveSeparatorExample(); }
      RStrip(RStrip(RStrip(RStrip(s, {'件'}), {'人'}), {'点'}), {'位'});
      { assert s[..|s| - 1] == "1234"; }
      RStrip(RStrip(RStrip("1234", {'人'}), {'点'}), {'位'});
      "1234";
    }
    DigitsValueExample();
    ParseIntDigits("1234");
  }

  lemma RemoveSeparatorExample()
    ensures Remove("1,234件", ',') == "1234件"
  {
    var raw := "1,234件";
    assert raw[1..] == ",234件" && raw[1..][1..] == "234件";
  }

  lemma DigitsValueExample()
    ensures AllDigits("1234") && DigitsValue("1234") == 1234
  {
    var d := "1234";
    assert forall i :: 0 <= i < |d| ==> d[i] in {'1', '2', '3', '4'};
    assert "1234"[..3] == "123" && "123"[..2] == "12" && "12"[..1] == "1" && "1"[..0] == "";
  }

  /** Units are stripped in a fixed order, so a 件 that precedes a trailing 位 survives. */
  lemma CleanCountUnitOrder()
    ensures CleanCount("5件位") == "5件"
  {
    var raw := "5件位";
    assert Remove(raw, ',') == raw;
    assert raw[..|raw| - 1] == "5件";
    assert RStrip(raw, {'件'}) == raw;
    assert RStrip(raw, {'人'}) == raw;
    assert RStrip(raw, {'点'}) == raw;
    assert RStrip(raw, {'位'}) == "5件";
  }

  /** A string that does not spell an integer is passed through unchanged. */
  lemma ConvertPassesThrough()
    ensures ConvertToIntIfInt(Some("5件")) == Str("5件")
  {
    assert Unpadded("5件", Whitespace);
    StripUnpadded("5件", Whitespace);
    assert !AllDigits("5件");
  }

  /** Stripping a tail off a prefix of `s` leaves a prefix of `s` whose tail is in `cs`. */
  lemma StripChain(s: string, t: string, u: string, stripped: set<char>, cs: set<char>)
    requires stripped <= cs
    requires |t| <= |s| && t == s[..|t|] && AllIn(s[|t|..], cs)
    requires |u| <= |t| && u == t[..|u|] && AllIn(t[|u|..], stripped)
    ensures |u| <= |s| && u == s[..|u|] && AllIn(s[|u|..], cs)
  {
    assert s[|u|..] == t[|u|..] + s[|t|..];
  }
}

=== FILE: patterns.dfy ===
/**
 * The `$`-anchored regular expressions of ramenbot/spiders/ramendb.py, each
 * used with search semantics, written out as predicates on the end of a URL.
 * Two shapes occur: `<marker>\d+\.html$` (a detail page with its numeric id)
 * and `<path>\?page=\d+$` (a listing page with its page number).
 */
module Patterns {
  import opened Base
  import opened Text

  /** `<marker>\d+\.html$` is found in `url`. For a marker that ends in a
      non-digit the digit run is the whole run of digits before `.html`. */
  predicate IdPage(url: string, marker: string) {
    HasSuffix(url, ".html") &&
    var body := url[..|url| - 5];
    var digits := TrailingDigits(body);
    |digits| > 0 && HasSuffix(body[..|body| - |digits|], marker)
  }

  /** One way the regular expression matches: some prefix, the marker, a digit run, `.html`. */
  predicate IdPageSplit(url: string, marker: string, prefix: string, digits: string) {
    |digits| > 0 && AllDigits(digits) && url == prefix + marker + digits + ".html"
  }

  /** The predicate accepts exactly the URLs the regular expression finds a match in. */
  lemma IdPageIsRegex(url: string, marker: string)
    requires marker != [] && !IsDigit(marker[|marker| - 1])
    ensures IdPage(url, marker) <==> exists p, d :: IdPageSplit(url, marker, p, d)
  {
    if IdPage(url, marker) {
      var body := url[..|url| - 5];
      var d := TrailingDigits(body);
      var p := body[..|body| - |d| - |marker|];
      assert body[..|body| - |d|] == p + marker;
      assert url == body + ".html";
      assert IdPageSplit(url, marker, p, d);
    }
    if exists p, d :: IdPageSplit(url, marker, p, d) {
      var p, d :| IdPageSplit(url, marker, p, d);
      IdPageOf(url, marker, p, d);
    }
  }

  /** A URL written as prefix, marker, digits, `.html` is accepted, with those digits as its id. */
  lemma IdPageOf(url: string, marker: string, p: string, d: string)
    requires marker != [] && !IsDigit(marker[|marker| - 1])
    requires IdPageSplit(url, marker, p, d)
    ensures IdPage(url, marker) && IdPageDigits(url, marker) == d
  {
    var body := url[..|url| - 5];
    assert url == (p + marker + d) + ".html";
    assert body == (p + marker) + d;
    TrailingDigitsOf(p + marker, d);
    assert body[..|body| - |d|] == p + marker;
  }

  /** The digit run a detail-page URL ends with. */
  function IdPageDigits(url: string, marker: string): (d: string)
    requires IdPage(url, marker)
    ensures |d| > 0 && AllDigits(d)
  {
    TrailingDigits(url[..|url| - 5])
  }

  /** `int(re.findall(marker + r'(\d+)\.html$', url)[0])`: the id a detail-page URL ends
      with, or `IndexError` when the URL does not have that shape. */
  function AnchoredId(url: string, marker: string): (r: Result<int>)
    ensures r.Ok? <==> IdPage(url, marker)
    ensures r.Err? ==> r.error == IndexError
  {
    if IdPage(url, marker) then Ok(DigitsValue(IdPageDigits(url, marker))) else Err(IndexError)
  }

  /** `<path>\?page=\d+$` is found in `url`. */
  predicate PageQuery(url: string, path: string) {
    var digits := TrailingDigits(url);
    |digits| > 0 && HasSuffix(url[..|url| - |digits|], path + "?page=")
  }

  /** One way the regular expression matches: some prefix, the path, `?page=`, a digit run. */
  predicate PageQuerySplit(url: string, path: string, prefix: string, digits: string) {
    |digits| > 0 && AllDigits(digits) && url == prefix + path + "?page=" + digits
  }

  /** The predicate accepts exactly the URLs the regular expression finds a match in. */
  lemma PageQueryIsRegex(url: string, path: string)
    ensures PageQuery(url, path) <==> exists p, d :: PageQuerySplit(url, path, p, d)
  {
    var q := path + "?page=";
    if PageQuery(url, path) {
      var d := TrailingDigits(url);
      var p := url[..|url| - |d| - |q|];
      assert url[..|url| - |d|] == p + q;
      assert url == p + q + d;
      assert PageQuerySplit(url, path, p, d);
    }
    if exists p, d :: PageQuerySplit(url, path, p, d) {
      var p, d :| PageQuerySplit(url, path, p, d);
      PageQueryOf(url, path, p, d);
    }
  }

  /** A URL written as prefix, path, `?page=`, digits is accepted. */
  lemma PageQueryOf(url: string, path: string, p: string, d: string)
    requires PageQuerySplit(url, path, p, d)
    ensures PageQuery(url, path)
  {
    var q := path + "?page=";
    assert url == (p + q) + d;
    assert (p + q)[|p + q| - 1] == '=';
    TrailingDigitsOf(p + q, d);
    assert url[..|url| - |d|] == p + q;
  }

  /** Two detail patterns that accept the same URL: the shorter marker ends the longer. */
  lemma IdPagesNest(url: string, a: string, b: string)
    requires IdPage(url, a) && IdPage(url, b) && |a| <= |b|
    ensures HasSuffix(b, a)
  {
    var body := url[..|url| - 5];
    SuffixesNest(body[..|body| - |TrailingDigits(body)|], a, b);
  }

  /** Two detail patterns whose shorter marker does not end the longer never accept the same URL. */
  lemma IdPagesApart(url: string, a: string, b: string)
    requires |a| <= |b| && !HasSuffix(b, a)
    ensures !(IdPage(url, a) && IdPage(url, b))
  {
    if IdPage(url, a) && IdPage(url, b) {
      IdPagesNest(url, a, b);
    }
  }

  /** Two listing patterns that accept the same URL: the shorter query ends the longer. */
  lemma PageQueriesNest(url: string, a: string, b: string)
    requires PageQuery(url, a) && PageQuery(url, b) && |a| <= |b|
    ensures HasSuffix(b + "?page=", a + "?page=")
  {
    SuffixesNest(url[..|url| - |TrailingDigits(url)|], a + "?page=", b + "?page=");
  }

  /** Two suffixes of one string: the shorter is a suffix of the longer. */
  lemma SuffixesNest(s: string, a: string, b: string)
    requires HasSuffix(s, a) && HasSuffix(s, b) && |a| <= |b|
    ensures HasSuffix(b, a)
  {
    assert b[|b| - |a|..] == s[|s| - |a|..];
  }
}

=== FILE: review.dfy ===
/**
 * `parse_review` of ramenbot/spiders/ramendb.py, with its helpers
 * `parse_noodle_and_soup` and `parse_comments`: a review page becomes a
 * `ReviewItem`, or the first exception one of its steps raises.
 */
module Review {
  import opened Base
  import opened Text
  import opened Items
  import opened Normalize
  import opened Patterns
  import opened Guard

  /** The part of a style label between its brackets: `lstrip('[').rstrip(']')`. */
  function StyleCore(style: string): string {
    RStrip(LStrip(style, {'['}), {']'})
  }

  /**
   * `parse_noodle_and_soup` together with its two-name unpacking: the
   * bracketed label split at `/` into the noodle and the soup. A missing
   * label raises `AttributeError`; a label with any number of `/` but one
   * raises `ValueError`.
   */
  function NoodleAndSoup(style: Option<string>): (r: Result<(string, string)>)
    ensures style.None? ==> r == Err(AttributeError)
    ensures style.Some? ==> (r.Ok? <==> Count(StyleCore(style.value), '/') == 1)
    ensures style.Some? && r.Err? ==> r.error == ValueError
    ensures r.Ok? ==>
      '/' !in r.value.0 && '/' !in r.value.1 &&
      StyleCore(style.value) == r.value.0 + "/" + r.value.1
  {
    match style
    case None => Err(AttributeError)
    case Some(s) =>
      var parts := Split(StyleCore(s), '/');
      if |parts| == 2 then
        JoinSplit(StyleCore(s), '/');
        assert Join(parts, '/') == parts[0] + "/" + Join(parts[1..], '/');
        Ok((parts[0], parts[1]))
      else Err(ValueError)
  }

  /** A label written as `[noodle/soup]` gives back its two names. */
  lemma NoodleAndSoupRoundTrip(noodle: string, soup: string)
    requires '/' !in noodle && '/' !in soup
    requires noodle == [] || noodle[0] != '['
    requires soup == [] || soup[|soup| - 1] != ']'
    ensures NoodleAndSoup(Some("[" + noodle + "/" + soup + "]")) == Ok((noodle, soup))
  {
    var core := noodle + "/" + soup;
    var tag := "[" + noodle + "/" + soup + "]";
    assert (core + "]")[0] != '[' by {
      if noodle == [] { assert (core + "]")[0] == '/'; } else { assert (core + "]")[0] == noodle[0]; }
    }
    assert core[|core| - 1] != ']' by {
      if soup == [] { assert core[|core| - 1] == '/'; } else { assert core[|core| - 1] == soup[|soup| - 1]; }
    }
    calc {
      StyleCore(tag);
      { assert tag == "[" + (core + "]"); }
      RStrip(LStrip("[" + (core + "]"), {'['}), {']'});
      { LStripSkips("[", core + "]", {'['}); }
      RStrip(core + "]", {']'});
      { RStripSkips(core, "]", {']'}); }
      core;
    }
    assert Join([noodle, soup], '/') == core by {
      assert [noodle, soup][1..] == [soup];
    }
    SplitJoin([noodle, soup], '/');
  }

  /** `[太麺/醤油]` (thick noodles, soy-sauce soup) unpacks to its two names. */
  lemma NoodleAndSoupExample()
    ensures NoodleAndSoup(Some("[太麺/醤油]")) == Ok(("太麺", "醤油"))
  {
    assert "[太麺/醤油]" == "[" + "太麺" + "/" + "醤油" + "]";
    NoodleAndSoupRoundTrip("太麺", "醤油");
  }

  /** A label with no `/`, or more than one, cannot be unpacked into two names. */
  lemma NoodleAndSoupNeedsOneSlash(s: string)
    requires Count(StyleCore(s), '/') != 1
    ensures NoodleAndSoup(Some(s)) == Err(ValueError)
  {
  }

  /** The date in a comment's footer: `.strip().strip('|').strip()`. */
  function PostDate(foot: string): (r: string)
    ensures Unpadded(r, Whitespace)
  {
    StripSpace(Strip(StripSpace(foot), {'|'}))
  }

  /** A footer made of blanks, a `|`, blanks, the date and blanks yields the date. */
  lemma PostDateOf(w1: string, w2: string, date: string, w3: string)
    requires AllIn(w1, Whitespace) && AllIn(w2, Whitespace) && AllIn(w3, Whitespace)
    requires date != [] && Unpadded(date, Whitespace) && Unpadded(date, {'|'})
    ensures PostDate(w1 + "|" + w2 + date + w3) == date
  {
    var mid := w2 + date;
    var inner := "|" + mid;
    assert inner[|inner| - 1] == date[|date| - 1];
    assert mid[0] == if w2 == [] then date[0] else w2[0];
    assert mid[|mid| - 1] == date[|date| - 1];
    calc {
      PostDate(w1 + "|" + w2 + date + w3);
      { assert w1 + "|" + w2 + date + w3 == w1 + inner + w3; }
      StripSpace(Strip(StripSpace(w1 + inner + w3), {'|'}));
      { StripAround(w1, inner, w3, Whitespace); }
      StripSpace(Strip(inner, {'|'}));
      { assert inner == "|" + mid + []; StripAround("|", mid, [], {'|'}); }
      StripSpace(mid);
      { assert mid == w2 + date + []; StripAround(w2, date, [], Whitespace); }
      date;
    }
  }

  /** One `#comment .one` block, as its selectors see it. */
  datatype CommentNode = CommentNode(
    paragraphs: seq<string>,      // p::text
    profileHref: Option<string>,  // .foot > span > a::attr(href)
    footText: Option<string>)     // .foot > span::text

  /**
   * The dictionary built for one comment, its entries evaluated in order: the
   * cleaned paragraphs, the commenter's id (which raises for a missing or
   * id-less link) and the post date (which raises `AttributeError` when the
   * footer has no text). So a comment is read exactly when its link yields an id
   * and its footer has text, and the id's exception comes first.
   */
  function CommentOf(node: CommentNode): (r: Result<Comment>)
    ensures r.Ok? <==> ExtractUserId(node.profileHref).Ok? && node.footText.Some?
    ensures ExtractUserId(node.profileHref).Err? ==> r == Err(ExtractUserId(node.profileHref).error)
    ensures ExtractUserId(node.profileHref).Ok? && node.footText.None? ==> r == Err(AttributeError)
    ensures r.Ok? ==>
      r.value.text == Trim(node.paragraphs) &&
      r.value.userId == ExtractUserId(node.profileHref).value &&
      r.value.postDate == PostDate(node.footText.value)
  {
    var userId := ExtractUserId(node.profileHref);
    if userId.Err? then Err(userId.error)
    else if node.footText.None? then Err(AttributeError)
    else Ok(Comment(Trim(node.paragraphs), userId.value, PostDate(node.footText.value)))
  }

  /** The comments of a review in page order, or the exception the first bad one raises. */
  function CommentsOf(nodes: seq<CommentNode>): (r: Result<seq<Comment>>)
    ensures r.Ok? ==> |r.value| == |nodes|
    ensures r.Err? ==> exists i :: 0 <= i < |nodes| && CommentOf(nodes[i]) == Err(r.error)
  {
    if nodes == [] then Ok([])
    else
      match CommentOf(nodes[0])
      case Err(e) => Err(e)
      case Ok(c) =>
        match CommentsOf(nodes[1..])
        case Err(e) => Err(e)
        case Ok(cs) => Ok([c] + cs)
  }

  /** `CommentsOf` succeeds exactly when every comment does, with one comment per
      block in order. */
  lemma {:induction false} CommentsOfSpec(nodes: seq<CommentNode>)
    ensures CommentsOf(nodes).Ok? <==> forall i :: 0 <= i < |nodes| ==> CommentOf(nodes[i]).Ok?
    ensures CommentsOf(nodes).Ok? ==>
      |CommentsOf(nodes).value| == |nodes| &&
      forall i :: 0 <= i < |nodes| ==> CommentsOf(nodes).value[i] == CommentOf(nodes[i]).value
  {
    if nodes != [] {
      CommentsOfSpec(nodes[1..]);
      assert forall i :: 1 <= i < |nodes| ==> nodes[i] == nodes[1..][i - 1];
    }
  }

  /** When every block before `i` is read and block `i` is not, the comments raise
      what block `i` raises: the first failing block decides the exception. */
  lemma {:induction false} CommentsOfFirstError(nodes: seq<CommentNode>, i: nat)
    requires i < |nodes| && CommentOf(nodes[i]).Err?
    requires forall j :: 0 <= j < i ==> CommentOf(nodes[j]).Ok?
    ensures CommentsOf(nodes) == Err(CommentOf(nodes[i]).error)
  {
    if i > 0 {
      var tail := nodes[1..];
      assert tail[i - 1] == nodes[i];
      assert forall j :: 0 <= j < i - 1 ==> tail[j] == nodes[j + 1];
      CommentsOfFirstError(tail, i - 1);
    }
  }

  /** When every block is read, the comments are those blocks' comments. */
  lemma CommentsOfAllRead(nodes: seq<CommentNode>, comments: seq<Comment>)
    requires |comments| == |nodes|
    requires forall j :: 0 <= j < |nodes| ==> CommentOf(nodes[j]).Ok? && comments[j] == CommentOf(nodes[j]).value
    ensures CommentsOf(nodes) == Ok(comments)
  {
    CommentsOfSpec(nodes);
    assert CommentsOf(nodes).value == comments;
  }

  /** `parse_comments`: one dictionary per comment block, appended in page order. */
  method ParseComments(nodes: seq<CommentNode>) returns (r: Result<seq<Comment>>)
    ensures r == CommentsOf(nodes)
  {
    var comments: seq<Comment> := [];
    for i := 0 to |nodes|
      invariant |comments| == i
      invariant forall j :: 0 <= j < i ==> CommentOf(nodes[j]).Ok? && comments[j] == CommentOf(nodes[j]).value
    {
      var comment := CommentOf(nodes[i]);
      if comment.Err? {
        CommentsOfFirstError(nodes, i);
        return Err(comment.error);
      }
      comments := comments + [comment.value];
    }
    CommentsOfAllRead(nodes, comments);
    return Ok(comments);
  }

  /** A review page, as its selectors see it. */
  datatype ReviewPage = ReviewPage(
    response: Response,
    itemReviewed: Option<string>,   // span[itemprop=itemReviewed]::text
    style: Option<string>,          // .style::text
    score: Option<string>,          // .score::text
    attention: Option<string>,      // .attention::text
    descriptions: seq<string>,      // span[itemprop=description]::text
    businessHref: Option<string>,   // .props > span > a::attr(href)
    userHref: Option<string>,       // .props > a::attr(href)
    datetime: Option<string>,       // time::attr(datetime)
    comments: seq<CommentNode>)     // #comment .one

  /** None of the steps of `parse_review` raises. */
  predicate ReviewParses(page: ReviewPage) {
    AnchoredId(page.response.url, "review/").Ok? && NoodleAndSoup(page.style).Ok? &&
    ExtractBusinessId(page.businessHref).Ok? && ExtractUserId(page.userHref).Ok? &&
    CommentsOf(page.comments).Ok?
  }

  /** The exception `parse_review` raises on a page one of whose steps fails: the
      steps run in the order id, style, business link, user link, comments, and the
      first that fails decides. */
  function ReviewError(page: ReviewPage): Exception
    requires !ReviewParses(page)
  {
    if AnchoredId(page.response.url, "review/").Err? then AnchoredId(page.response.url, "review/").error
    else if NoodleAndSoup(page.style).Err? then NoodleAndSoup(page.style).error
    else if ExtractBusinessId(page.businessHref).Err? then ExtractBusinessId(page.businessHref).error
    else if ExtractUserId(page.userHref).Err? then ExtractUserId(page.userHref).error
    else CommentsOf(page.comments).error
  }

  /** The fields `parse_review` assigns. */
  const ReviewKeys: set<string> := {
    "review_id", "item_name", "noodle_type", "soup_type", "score", "attention",
    "text", "business_id", "user_id", "post_date", "comments"
  }

  /** The review item of a page none of whose steps raises. */
  function ReviewItemOf(page: ReviewPage): (m: Item)
    requires ReviewParses(page)
    ensures m.Keys == ReviewKeys
  {
    var style := NoodleAndSoup(page.style).value;
    map[
      "review_id" := Int(AnchoredId(page.response.url, "review/").value),
      "item_name" := OptStr(page.itemReviewed),
      "noodle_type" := Str(style.0),
      "soup_type" := Str(style.1),
      "score" := ConvertToIntIfInt(page.score),
      "attention" := OptStr(page.attention),
      "text" := Strs(Trim(page.descriptions)),
      "business_id" := Int(ExtractBusinessId(page.businessHref).value),
      "user_id" := Int(ExtractUserId(page.userHref).value),
      "post_date" := OptStr(page.datetime),
      "comments" := Comments(CommentsOf(page.comments).value)
    ]
  }

  /** Every field a review item gets is one `ReviewItem` declares. */
  lemma ReviewKeysDeclared()
    ensures ReviewKeys <= ReviewItemFields
  {
  }

  /**
   * `parse_review`. A page without the site header is fetched again. Otherwise
   * the review id, the style, the business link, the user link and the comments
   * are read in that order, and the first of them that raises decides the
   * outcome; when none raises the page becomes a review item.
   */
  method ParseReview(page: ReviewPage) returns (r: Result<Outcome>)
    ensures !IsRamendb(page.response) ==> r == Ok(RefetchOf(page.response))
    ensures IsRamendb(page.response) ==> (r.Err? <==> !ReviewParses(page))
    ensures IsRamendb(page.response) && r.Err? ==> r.error == ReviewError(page)
    ensures IsRamendb(page.response) && ReviewParses(page) ==>
      r.Ok? && r.value == Scraped(ReviewItemOf(page))
  {
    if !IsRamendb(page.response) {
      return Ok(RefetchOf(page.response));
    }
    var reviewId := AnchoredId(page.response.url, "review/");
    if reviewId.Err? {
      return Err(reviewId.error);
    }
    var review: Item := map[];
    review := review["review_id" := Int(reviewId.value)];
    review := review["item_name" := OptStr(page.itemReviewed)];
    var style := NoodleAndSoup(page.style);
    if style.Err? {
      return Err(style.error);
    }
    review := review["noodle_type" := Str(style.value.0)];
    review := review["soup_type" := Str(style.value.1)];
    review := review["score" := ConvertToIntIfInt(page.score)];
    review := review["attention" := OptStr(page.attention)];
    review := review["text" := Strs(Trim(page.descriptions))];
    var businessId := ExtractBusinessId(page.businessHref);
    if businessId.Err? {
      return Err(businessId.error);
    }
    review := review["business_id" := Int(businessId.value)];
    var userId := ExtractUserId(page.userHref);
    if userId.Err? {
      return Err(userId.error);
    }
    review := review["user_id" := Int(userId.value)];
    review := review["post_date" := OptStr(page.datetime)];
    var comments := ParseComments(page.comments);
    if comments.Err? {
      return Err(comments.error);
    }
    review := review["comments" := Comments(comments.value)];
    assert review == ReviewItemOf(page);
    return Ok(Scraped(review));
  }
}

=== FILE: rules.dfy ===
/**
 * The spider's ordered link rules (ramendb.py, `RamenDbSpider.rules`): for
 * every link found on a page, the first rule whose pattern the URL matches
 * decides whether the link is followed and which callback, if any, parses
 * the page it leads to. A link no rule matches is dropped.
 */
module Rules {
  import opened Base
  import opened Text
  import opened Patterns
  import opened Normalize

  /** The five URL patterns, one per rule. */
  datatype Pattern =
    | BusinessPagination  // search\?page=\d+$
    | BusinessDetail      // s/\d+\.html$
    | ReviewPagination    // review(\?page=\d+)?$
    | ReviewDetail        // review/\d+\.html$
    | UserDetail          // u/\d+\.html$

  predicate Accepts(p: Pattern, url: string) {
    match p
    case BusinessPagination => PageQuery(url, "search")
    case BusinessDetail => IdPage(url, "s/")
    case ReviewPagination => HasSuffix(url, "review") || PageQuery(url, "review")
    case ReviewDetail => IdPage(url, "review/")
    case UserDetail => IdPage(url, "u/")
  }

  /** The spider method a followed page is handed to. */
  datatype Callback = ParseBusiness | ParseReview | ParseUser

  datatype Rule = Rule(pattern: Pattern, follow: bool, callback: Option<Callback>)

  /** `rules`, in order. */
  const RuleTable: seq<Rule> := [
    Rule(BusinessPagination, true, None),
    Rule(BusinessDetail, true, Some(ParseBusiness)),
    Rule(ReviewPagination, true, None),
    Rule(ReviewDetail, true, Some(ParseReview)),
    Rule(UserDetail, true, Some(ParseUser))
  ]

  /** The index of the first rule at or after `from` whose pattern accepts `url`. */
  function FirstRule(url: string, from: nat): (r: Option<nat>)
    requires from <= |RuleTable|
    ensures r.Some? ==> from <= r.value < |RuleTable| && Accepts(RuleTable[r.value].pattern, url)
    ensures r.Some? ==> forall j :: from <= j < r.value ==> !Accepts(RuleTable[j].pattern, url)
    ensures r.None? ==> forall j :: from <= j < |RuleTable| ==> !Accepts(RuleTable[j].pattern, url)
    decreases |RuleTable| - from
  {
    if from == |RuleTable| then None
    else if Accepts(RuleTable[from].pattern, url) then Some(from)
    else FirstRule(url, from + 1)
  }

  /** The rule that handles a link, or `None` when the link is dropped. */
  function Dispatch(url: string): (r: Option<Rule>)
    ensures r.Some? ==> r.value in RuleTable && Accepts(r.value.pattern, url)
    ensures r.None? ==> forall i :: 0 <= i < |RuleTable| ==> !Accepts(RuleTable[i].pattern, url)
  {
    match FirstRule(url, 0)
    case None => None
    case Some(i) => Some(RuleTable[i])
  }

  /** What a pattern says about the last character of a URL it accepts. */
  lemma AcceptedEnding(p: Pattern, url: string)
    requires Accepts(p, url)
    ensures url != []
    ensures p == BusinessPagination ==> IsDigit(url[|url| - 1])
    ensures p in {BusinessDetail, ReviewDetail, UserDetail} ==> url[|url| - 1] == 'l'
    ensures p == ReviewPagination ==> url[|url| - 1] == 'w' || IsDigit(url[|url| - 1])
  {
    match p
    case BusinessPagination =>
    case ReviewPagination =>
      if HasSuffix(url, "review") {
        assert url[|url| - 1] == url[|url| - 6..][5];
      }
    case _ =>
      assert url[|url| - 1] == url[|url| - 5..][4];
  }

  /** No URL is accepted by two of the patterns. */
  lemma PatternsDisjoint(p: Pattern, q: Pattern, url: string)
    requires p != q
    ensures !(Accepts(p, url) && Accepts(q, url))
  {
    if Accepts(p, url) && Accepts(q, url) {
      if p in DetailPatterns && q in DetailPatterns {
        DetailsDisjoint(p, q, url);
      } else if {p, q} == {BusinessPagination, ReviewPagination} && !HasSuffix(url, "review") {
        PaginationsDisjoint(url);
      } else {
        AcceptedEnding(p, url);
        AcceptedEnding(q, url);
      }
    }
  }

  /** The three detail-page patterns. */
  const DetailPatterns: set<Pattern> := {BusinessDetail, ReviewDetail, UserDetail}

  /** Two detail patterns never accept the same URL: no marker is a suffix of another. */
  lemma DetailsDisjoint(p: Pattern, q: Pattern, url: string)
    requires p in DetailPatterns && q in DetailPatterns && p != q
    ensures !(Accepts(p, url) && Accepts(q, url))
  {
    assert "review/"[5..] == "w/";
    IdPagesApart(url, "s/", "u/");
    IdPagesApart(url, "s/", "review/");
    IdPagesApart(url, "u/", "review/");
  }

  /** The two listing patterns with a page number never accept the same URL. */
  lemma PaginationsDisjoint(url: string)
    ensures !(PageQuery(url, "search") && PageQuery(url, "review"))
  {
    assert ("review" + "?page=")[0] != ("search" + "?page=")[0];
    if PageQuery(url, "search") && PageQuery(url, "review") {
      PageQueriesNest(url, "search", "review");
    }
  }

  /** Rules are tried in order: a link goes to the first rule that accepts it,
      and is dropped exactly when no rule accepts it. */
  lemma DispatchFirstMatch(url: string, i: nat)
    requires i < |RuleTable|
    ensures Dispatch(url) == Some(RuleTable[i]) <==>
      Accepts(RuleTable[i].pattern, url) && forall j :: 0 <= j < i ==> !Accepts(RuleTable[j].pattern, url)
    ensures Dispatch(url).None? <==> forall j :: 0 <= j < |RuleTable| ==> !Accepts(RuleTable[j].pattern, url)
  {
    var r := FirstRule(url, 0);
    if r.Some? && r.value != i && Dispatch(url) == Some(RuleTable[i]) {
      assert false;
    }
  }

  /** Because the patterns are disjoint, the rule that accepts a link is the one that handles it. */
  lemma DispatchUnique(url: string, i: nat)
    requires i < |RuleTable| && Accepts(RuleTable[i].pattern, url)
    ensures Dispatch(url) == Some(RuleTable[i])
  {
    forall j | 0 <= j < i
      ensures !Accepts(RuleTable[j].pattern, url)
    {
      PatternsDisjoint(RuleTable[j].pattern, RuleTable[i].pattern, url);
    }
    DispatchFirstMatch(url, i);
  }

  /** Detail pages are followed and parsed; listing pages are followed only; other links produce nothing. */
  lemma DispatchActions(url: string)
    ensures Accepts(BusinessDetail, url) ==> Dispatch(url) == Some(Rule(BusinessDetail, true, Some(ParseBusiness)))
    ensures Accepts(ReviewDetail, url) ==> Dispatch(url) == Some(Rule(ReviewDetail, true, Some(ParseReview)))
    ensures Accepts(UserDetail, url) ==> Dispatch(url) == Some(Rule(UserDetail, true, Some(ParseUser)))
    ensures Accepts(BusinessPagination, url) || Accepts(ReviewPagination, url) ==>
      Dispatch(url).Some? && Dispatch(url).value.follow && Dispatch(url).value.callback.None?
    ensures (forall p: Pattern :: !Accepts(p, url)) ==> Dispatch(url).None?
  {
    if Accepts(BusinessDetail, url) { DispatchUnique(url, 1); }
    if Accepts(ReviewDetail, url) { DispatchUnique(url, 3); }
    if Accepts(UserDetail, url) { DispatchUnique(url, 4); }
    if Accepts(BusinessPagination, url) { DispatchUnique(url, 0); }
    if Accepts(ReviewPagination, url) { DispatchUnique(url, 2); }
    if forall p: Pattern :: !Accepts(p, url) {
      DispatchFirstMatch(url, 0);
    }
  }

  /** A page that a detail rule hands to its callback always yields the id that callback reads:
      the anchored business and review patterns, and `extract_user_id` for users. */
  lemma DetailUrlsYieldIds(url: string)
    ensures Accepts(BusinessDetail, url) ==> AnchoredId(url, "s/").Ok?
    ensures Accepts(ReviewDetail, url) ==> AnchoredId(url, "review/").Ok?
    ensures Accepts(UserDetail, url) ==> ExtractUserId(Some(url)).Ok?
  {
    if Accepts(UserDetail, url) {
      var body := url[..|url| - 5];
      var d := TrailingDigits(body);
      var i := |body| - |d| - 2;
      assert url[i..i + 2] == body[..|body| - |d|][i..];
      assert url[i + 2] == d[0];
      assert MarkerDigitAt(url, "u/", i);
      ExtractIdAfterSpec(url, "u/");
    }
  }

  /** The start URL and the example URLs in the comments beside the rules reach the rules they annotate. */
  lemma ExampleBusinessPagination()
    ensures Dispatch("https://ramendb.supleks.jp/search?page=1") == Some(RuleTable[0])
  {
    var url := "https://ramendb.supleks.jp/search?page=1";
    PageQueryOf(url, "search", "https://ramendb.supleks.jp/", "1");
    DispatchUnique(url, 0);
  }

  lemma ExampleBusinessDetail()
    ensures Dispatch("https://ramendb.supleks.jp/s/282.html") == Some(RuleTable[1])
  {
    var url := "https://ramendb.supleks.jp/s/282.html";
    IdPageOf(url, "s/", "https://ramendb.supleks.jp/", "282");
    DispatchUnique(url, 1);
  }

  lemma ExampleReviewListing()
    ensures Dispatch("https://ramendb.supleks.jp/s/100962/review") == Some(RuleTable[2])
  {
    var url := "https://ramendb.supleks.jp/s/100962/review";
    assert url[|url| - 6..] == "review";
    DispatchUnique(url, 2);
  }

  lemma ExampleReviewPagination()
    ensures Dispatch("https://ramendb.supleks.jp/s/100962/review?page=2") == Some(RuleTable[2])
  {
    var url := "https://ramendb.supleks.jp/s/100962/review?page=2";
    PageQueryOf(url, "review", "https://ramendb.supleks.jp/s/100962/", "2");
    DispatchUnique(url, 2);
  }

  lemma ExampleReviewDetail()
    ensures Dispatch("https://ramendb.supleks.jp/review/1057563.html") == Some(RuleTable[3])
  {
    var url := "https://ramendb.supleks.jp/review/1057563.html";
    IdPageOf(url, "review/", "https://ramendb.supleks.jp/", "1057563");
    DispatchUnique(url, 3);
  }

  lemma ExampleUserDetail()
    ensures Dispatch("https://ramendb.supleks.jp/u/141495.html") == Some(RuleTable[4])
  {
    var url := "https://ramendb.supleks.jp/u/141495.html";
    IdPageOf(url, "u/", "https://ramendb.supleks.jp/", "141495");
    DispatchUnique(url, 4);
  }
}

=== FILE: tables.dfy ===
/**
 * The label tables of ramenbot/spiders/ramendb.py and the row pass that uses
 * them. A business page lists its details as table rows headed by a Japanese
 * label; a row whose label is a key of the mapping is stored under the
 * canonical field the label maps to, a row with any other label (or none) is
 * skipped, and a later row with the same field overwrites an earlier one.
 */
module Tables {
  import opened Base
  import opened Items

  /** `BUSINESS_BASIC_INFO_FIELDS`, in order. */
  const BasicInfoFields: seq<string> := [
    "business_hours", "holidays", "seats", "smoking", "nearest_station",
    "access", "parking", "open_date", "menu", "comments", "prizes", "tags",
    "external_links"
  ]

  /** `BUSINESS_BASIC_INFO_MAPPING`: row label to field. */
  const BasicInfoMapping: map<string, string> := map[
    "営業時間" := "business_hours",
    "定休日" := "holidays",
    "席数" := "seats",
    "喫煙" := "smoking",
    "最寄り駅" := "nearest_station",
    "アクセス" := "access",
    "駐車場" := "parking",
    "開店日" := "open_date",
    "メニュー" := "menu",
    "備考" := "comments",
    "受賞歴" := "prizes",
    "タグ" := "tags",
    "外部リンク" := "external_links"
  ]

  /** `BUSINESS_METADATA_FIELDS`, in order. */
  const MetadataFields: seq<string> := [
    "review_count", "review_user_count", "average_score", "ranking", "like_count"
  ]

  /** `BUSINESS_METADATA_MAPPING`: row label to field. */
  const MetadataMapping: map<string, string> := map[
    "レビュー件数" := "review_count",
    "レビューユーザー数" := "review_user_count",
    "平均点" := "average_score",
    "総合順位" := "ranking",
    "スキ" := "like_count"
  ]

  /** The basic-information list names exactly the fields its mapping produces. */
  lemma BasicInfoTableAgrees()
    ensures forall f :: f in BasicInfoMapping.Values <==> f in BasicInfoFields
  {
    assert BasicInfoMapping["営業時間"] == "business_hours";
    assert BasicInfoMapping["定休日"] == "holidays";
    assert BasicInfoMapping["席数"] == "seats";
    assert BasicInfoMapping["喫煙"] == "smoking";
    assert BasicInfoMapping["最寄り駅"] == "nearest_station";
    assert BasicInfoMapping["アクセス"] == "access";
    assert BasicInfoMapping["駐車場"] == "parking";
    assert BasicInfoMapping["開店日"] == "open_date";
    assert BasicInfoMapping["メニュー"] == "menu";
    assert BasicInfoMapping["備考"] == "comments";
    assert BasicInfoMapping["受賞歴"] == "prizes";
    assert BasicInfoMapping["タグ"] == "tags";
    assert BasicInfoMapping["外部リンク"] == "external_links";
  }

  /** The metadata list names exactly the fields its mapping produces. */
  lemma MetadataTableAgrees()
    ensures forall f :: f in MetadataMapping.Values <==> f in MetadataFields
  {
    assert MetadataMapping["レビュー件数"] == "review_count";
    assert MetadataMapping["レビューユーザー数"] == "review_user_count";
    assert MetadataMapping["平均点"] == "average_score";
    assert MetadataMapping["総合順位"] == "ranking";
    assert MetadataMapping["スキ"] == "like_count";
  }

  /** Both lists name fields of `BusinessItem`, and no field is in both. */
  lemma TableFieldsDeclared()
    ensures forall f :: f in BasicInfoFields ==> f in BusinessItemFields
    ensures forall f :: f in MetadataFields ==> f in BusinessItemFields
    ensures forall f :: f in BasicInfoFields ==> f !in MetadataFields
  {
  }

  /** `key in MAPPING` and `MAPPING[key]` for a row heading that may be missing:
      the field a row is stored under, or `None` when the row is skipped. */
  function FieldOf(mapping: map<string, string>, heading: Option<string>): (r: Option<string>)
    ensures r.Some? <==> heading.Some? && heading.value in mapping
    ensures r.Some? ==> r.value in mapping.Values && r.value == mapping[heading.value]
  {
    if heading.Some? && heading.value in mapping then Some(mapping[heading.value]) else None
  }

  /** What one row contributes: nothing, or a value under a field. */
  datatype Entry = Skip | Set(field: string, value: Value)

  predicate Sets(e: Entry, field: string) {
    e.Set? && e.field == field
  }

  /** The dictionary the loop builds: the entries applied in order, each `Set`
      assigning its field. */
  function Assign(entries: seq<Entry>): (m: map<string, Value>)
    ensures forall f :: f in m ==> exists i :: 0 <= i < |entries| && Sets(entries[i], f)
  {
    if entries == [] then map[]
    else
      var init := entries[..|entries| - 1];
      var m := Assign(init);
      assert forall i :: 0 <= i < |init| ==> init[i] == entries[i];
      match entries[|entries| - 1]
      case Skip => m
      case Set(f, v) => m[f := v]
  }

  /** A field is present exactly when some entry sets it. */
  lemma {:induction false} AssignKeys(entries: seq<Entry>, f: string)
    ensures f in Assign(entries) <==> exists i :: 0 <= i < |entries| && Sets(entries[i], f)
  {
    if entries != [] {
      var init := entries[..|entries| - 1];
      AssignKeys(init, f);
      if exists i :: 0 <= i < |init| && Sets(init[i], f) {
        var i :| 0 <= i < |init| && Sets(init[i], f);
        assert Sets(entries[i], f);
      }
    }
  }

  /** The value stored under a field is the one the last entry setting it carries. */
  lemma {:induction false} AssignLastWins(entries: seq<Entry>, i: nat)
    requires i < |entries| && entries[i].Set?
    requires forall j :: i < j < |entries| ==> !Sets(entries[j], entries[i].field)
    ensures entries[i].field in Assign(entries)
    ensures Assign(entries)[entries[i].field] == entries[i].value
  {
    var init := entries[..|entries| - 1];
    if i < |entries| - 1 {
      assert init[i] == entries[i];
      AssignLastWins(init, i);
    }
  }
}

=== FILE: text.dfy ===
/**
 * The Python string built-ins the spider relies on: `strip`, `lstrip` and
 * `rstrip` with and without a character argument, `replace(c, '')`,
 * `split(sep)`, `''.join`, and decimal digit runs.
 */
module Text {

  /** The characters the argument-less `strip()` of a Python 2.7 unicode string removes. */
  const Whitespace: set<char> := {
    '\t', '\n', '\U{000B}', '\U{000C}', '\r',
    '\U{001C}', '\U{001D}', '\U{001E}', '\U{001F}', ' ',
    '\U{0085}', '\U{00A0}', '\U{1680}', '\U{180E}',
    '\U{2000}', '\U{2001}', '\U{2002}', '\U{2003}', '\U{2004}', '\U{2005}',
    '\U{2006}', '\U{2007}', '\U{2008}', '\U{2009}', '\U{200A}',
    '\U{2028}', '\U{2029}', '\U{202F}', '\U{205F}', '\U{3000}'
  }

  predicate IsDigit(c: char) {
    '0' <= c <= '9'
  }

  predicate AllDigits(s: string) {
    forall i :: 0 <= i < |s| ==> IsDigit(s[i])
  }

  predicate AllIn(s: string, cs: set<char>) {
    forall i :: 0 <= i < |s| ==> s[i] in cs
  }

  predicate HasSuffix(s: string, suffix: string) {
    |suffix| <= |s| && s[|s| - |suffix|..] == suffix
  }

  /** Neither starts nor ends with a character of `cs`. */
  predicate Unpadded(s: string, cs: set<char>) {
    s == [] || (s[0] !in cs && s[|s| - 1] !in cs)
  }

  /** `s.lstrip(chars)`: drops the longest prefix made of characters in `cs`. */
  function LStrip(s: string, cs: set<char>): (r: string)
    ensures |r| <= |s|
    ensures r == [] || r[0] !in cs
  {
    if s != [] && s[0] in cs then LStrip(s[1..], cs) else s
  }

  /** What `lstrip` drops is a prefix of characters in `cs`; the rest is untouched. */
  lemma {:induction false} LStripSuffix(s: string, cs: set<char>)
    ensures LStrip(s, cs) == s[|s| - |LStrip(s, cs)|..]
    ensures AllIn(s[..|s| - |LStrip(s, cs)|], cs)
  {
    if s != [] && s[0] in cs {
      LStripSuffix(s[1..], cs);
      var r := LStrip(s, cs);
      assert s[..|s| - |r|] == [s[0]] + s[1..][..|s| - 1 - |r|];
    }
  }

  /** `s.rstrip(chars)`: drops the longest suffix made of characters in `cs`. */
  function RStrip(s: string, cs: set<char>): (r: string)
    ensures |r| <= |s|
    ensures r == [] || r[|r| - 1] !in cs
  {
    if s != [] && s[|s| - 1] in cs then RStrip(s[..|s| - 1], cs) else s
  }

  /** What `rstrip` drops is a suffix of characters in `cs`; the rest is untouched. */
  lemma {:induction false} RStripPrefix(s: string, cs: set<char>)
    ensures RStrip(s, cs) == s[..|RStrip(s, cs)|]
    ensures AllIn(s[|RStrip(s, cs)|..], cs)
  {
    if s != [] && s[|s| - 1] in cs {
      RStripPrefix(s[..|s| - 1], cs);
      var r := RStrip(s, cs);
      assert s[|r|..] == s[..|s| - 1][|r|..] + [s[|s| - 1]];
    }
  }

  /** Characters of `cs` in front of `s` make no difference to `lstrip`. */
  lemma {:induction false} LStripSkips(p: string, s: string, cs: set<char>)
    requires AllIn(p, cs)
    ensures LStrip(p + s, cs) == LStrip(s, cs)
  {
    if p == [] {
      assert p + s == s;
    } else {
      assert (p + s)[1..] == p[1..] + s;
      LStripSkips(p[1..], s, cs);
    }
  }

  /** Characters of `cs` after `s` make no difference to `rstrip`. */
  lemma {:induction false} RStripSkips(s: string, p: string, cs: set<char>)
    requires AllIn(p, cs)
    ensures RStrip(s + p, cs) == RStrip(s, cs)
  {
    if p == [] {
      assert s + p == s;
    } else {
      var q := p[..|p| - 1];
      assert (s + p)[..|s + p| - 1] == s + q;
      RStripSkips(s, q, cs);
    }
  }

  /** `s.strip(chars)`: both of the above. */
  function Strip(s: string, cs: set<char>): (r: string)
    ensures Unpadded(r, cs)
  {
    var l := LStrip(s, cs);
    RStripPrefix(l, cs);
    RStrip(l, cs)
  }

  /** `s.strip()` with no argument. */
  function StripSpace(s: string): string {
    Strip(s, Whitespace)
  }

  /** Stripping removes only characters of `cs`, from the two ends, and keeps the middle. */
  lemma StripIsInfix(s: string, cs: set<char>)
    ensures exists i, j :: 0 <= i <= j <= |s| && Strip(s, cs) == s[i..j] && AllIn(s[..i], cs) && AllIn(s[j..], cs)
  {
    var l := LStrip(s, cs);
    var r := RStrip(l, cs);
    LStripSuffix(s, cs);
    RStripPrefix(l, cs);
    var i := |s| - |l|;
    var j := i + |r|;
    assert l == s[i..];
    assert r == l[..|r|];
    assert r == s[i..j];
    assert s[j..] == l[|r|..];
  }

  /** Stripping a non-empty unpadded core surrounded by characters of `cs` gives the core. */
  lemma StripAround(pre: string, core: string, post: string, cs: set<char>)
    requires AllIn(pre, cs) && AllIn(post, cs)
    requires core != [] && Unpadded(core, cs)
    ensures Strip(pre + core + post, cs) == core
  {
    assert pre + core + post == pre + (core + post);
    LStripSkips(pre, core + post, cs);
    assert (core + post)[0] == core[0];
    RStripSkips(core, post, cs);
  }

  /** A string that is already stripped is left alone, so stripping is idempotent. */
  lemma StripUnpadded(s: string, cs: set<char>)
    requires Unpadded(s, cs)
    ensures Strip(s, cs) == s
  {
  }

  /** `s.replace(c, '')`: every occurrence of `c` removed, the rest in order. */
  function Remove(s: string, c: char): (r: string)
    ensures c !in r
    ensures c !in s ==> r == s
  {
    if s == [] then []
    else
      var rest := Remove(s[1..], c);
      if s[0] == c then rest else [s[0]] + rest
  }

  /** `replace` removes only `c`: every other character keeps its number of occurrences. */
  lemma {:induction false} RemoveKeepsOthers(s: string, c: char)
    ensures multiset(Remove(s, c)) == multiset(s)[c := 0]
  {
    if s != [] {
      RemoveKeepsOthers(s[1..], c);
      assert s == [s[0]] + s[1..];
    }
  }

  /** On one character, `replace` drops it when it is `c` and keeps it otherwise. */
  lemma RemoveOne(x: char, c: char)
    ensures Remove([x], c) == if x == c then [] else [x]
  {
    assert [x][1..] == [];
  }

  /** `replace` works character by character: it distributes over concatenation,
      so the characters it keeps stay in their order. */
  lemma {:induction false} RemoveAppend(s: string, t: string, c: char)
    ensures Remove(s + t, c) == Remove(s, c) + Remove(t, c)
  {
    if s == [] {
      assert s + t == t;
    } else {
      assert (s + t)[1..] == s[1..] + t;
      RemoveAppend(s[1..], t, c);
    }
  }

  /** `n` copies of `c`. */
  function Rep(c: char, n: nat): (s: string)
    ensures |s| == n && AllIn(s, {c})
  {
    seq(n, _ => c)
  }

  /** `rstrip(u)` removes a whole trailing run of `u` and stops at the first other character. */
  lemma RStripRun(p: string, u: char, n: nat)
    requires p == [] || p[|p| - 1] != u
    ensures RStrip(p + Rep(u, n), {u}) == p
  {
    RStripSkips(p, Rep(u, n), {u});
  }

  /** `''.join(parts)`. */
  function Concat(parts: seq<string>): string {
    if parts == [] then [] else parts[0] + Concat(parts[1..])
  }

  /** `s.count(c)`: the number of occurrences of `c` in `s`. */
  function Count(s: string, c: char): (n: nat)
    ensures n == 0 <==> c !in s
  {
    if s == [] then 0 else (if s[0] == c then 1 else 0) + Count(s[1..], c)
  }

  /** `s.split(sep)`: the pieces between occurrences of `sep`; `''.split(sep)` is `['']`. */
  function Split(s: string, sep: char): (parts: seq<string>)
    ensures |parts| == Count(s, sep) + 1
    ensures forall i :: 0 <= i < |parts| ==> sep !in parts[i]
  {
    if s == [] then [[]]
    else
      var rest := Split(s[1..], sep);
      if s[0] == sep then [[]] + rest
      else
        assert forall i :: 1 <= i < |rest| ==> ([[s[0]] + rest[0]] + rest[1..])[i] == rest[i];
        [[s[0]] + rest[0]] + rest[1..]
  }

  /** `sep.join(parts)`, the inverse of `Split`. */
  function Join(parts: seq<string>, sep: char): string {
    if parts == [] then []
    else if |parts| == 1 then parts[0]
    else parts[0] + [sep] + Join(parts[1..], sep)
  }

  /** Joining the pieces of a split gives back the string. */
  lemma {:induction false} JoinSplit(s: string, sep: char)
    ensures Join(Split(s, sep), sep) == s
  {
    if s != [] {
      JoinSplit(s[1..], sep);
      assert s == [s[0]] + s[1..];
      JoinSplitCons(s[0], s[1..], sep);
    }
  }

  /** The inductive step of `JoinSplit`: one more character in front. */
  lemma JoinSplitCons(c: char, tail: string, sep: char)
    requires Join(Split(tail, sep), sep) == tail
    ensures Join(Split([c] + tail, sep), sep) == [c] + tail
  {
    var rest := Split(tail, sep);
    SplitCons(c, tail, sep);
    if c == sep {
      calc {
        Join(Split([c] + tail, sep), sep);
        Join([[]] + rest, sep);
        { JoinCons([], rest, sep); }
        [] + [sep] + Join(rest, sep);
        [c] + tail;
      }
    } else if |rest| == 1 {
      calc {
        Join(Split([c] + tail, sep), sep);
        Join([[c] + rest[0]], sep);
        [c] + rest[0];
        [c] + Join(rest, sep);
      }
    } else {
      calc {
        Join(Split([c] + tail, sep), sep);
        Join([[c] + rest[0]] + rest[1..], sep);
        { JoinCons([c] + rest[0], rest[1..], sep); }
        [c] + (rest[0] + [sep] + Join(rest[1..], sep));
        { assert rest == [rest[0]] + rest[1..]; JoinCons(rest[0], rest[1..], sep); }
        [c] + Join(rest, sep);
      }
    }
  }

  /** One step of `join`: a piece in front of further pieces is followed by the separator. */
  lemma JoinCons(p: string, parts: seq<string>, sep: char)
    requires parts != []
    ensures Join([p] + parts, sep) == p + [sep] + Join(parts, sep)
  {
    assert ([p] + parts)[1..] == parts;
  }

  /** Splitting a join of separator-free pieces gives back the pieces. */
  lemma {:induction false} SplitJoin(parts: seq<string>, sep: char)
    requires |parts| >= 1
    requires forall i :: 0 <= i < |parts| ==> sep !in parts[i]
    ensures Split(Join(parts, sep), sep) == parts
  {
    if |parts| == 1 {
      SplitPiece(parts[0], sep);
    } else {
      SplitJoin(parts[1..], sep);
      SplitPrefix(parts[0], Join(parts[1..], sep), sep);
      assert parts == [parts[0]] + parts[1..];
    }
  }

  lemma {:induction false} SplitPiece(p: string, sep: char)
    requires sep !in p
    ensures Split(p, sep) == [p]
  {
    if p != [] {
      SplitPiece(p[1..], sep);
      assert p == [p[0]] + p[1..];
    }
  }

  lemma {:induction false} SplitPrefix(p: string, rest: string, sep: char)
    requires sep !in p
    ensures Split(p + [sep] + rest, sep) == [p] + Split(rest, sep)
  {
    if p == [] {
      assert p + [sep] + rest == [sep] + rest;
      SplitCons(sep, rest, sep);
    } else {
      var q := p[1..] + [sep] + rest;
      assert p + [sep] + rest == [p[0]] + q;
      SplitCons(p[0], q, sep);
      SplitPrefix(p[1..], rest, sep);
      assert [p[0]] + p[1..] == p;
    }
  }

  /** One step of `split`: a separator in front starts an empty piece, any other
      character joins the first piece. */
  lemma SplitCons(c: char, s: string, sep: char)
    ensures var rest := Split(s, sep);
      Split([c] + s, sep) == if c == sep then [[]] + rest else [[c] + rest[0]] + rest[1..]
  {
    assert ([c] + s)[1..] == s;
  }

  function DigitValue(c: char): nat
    requires IsDigit(c)
  {
    (c as int) - ('0' as int)
  }

  function DigitChar(n: nat): (c: char)
    requires n < 10
    ensures IsDigit(c) && DigitValue(c) == n
  {
    ('0' as int + n) as char
  }

  /** `int(d)` for a run of decimal digits. */
  function DigitsValue(d: string): nat
    requires AllDigits(d)
  {
    if d == [] then 0 else DigitsValue(d[..|d| - 1]) * 10 + DigitValue(d[|d| - 1])
  }

  /** `str(n)` for a natural number. */
  function NatToDigits(n: nat): (d: string)
    ensures |d| >= 1 && AllDigits(d)
  {
    if n < 10 then [DigitChar(n)] else NatToDigits(n / 10) + [DigitChar(n % 10)]
  }

  /** Reading back the decimal spelling of a number gives the number. */
  lemma {:induction false} DigitsRoundTrip(n: nat)
    ensures DigitsValue(NatToDigits(n)) == n
  {
    var d := NatToDigits(n);
    if n >= 10 {
      DigitsRoundTrip(n / 10);
      assert d[..|d| - 1] == NatToDigits(n / 10);
    }
  }

  /** The longest run of digits that starts `s` (what a greedy `\d+` consumes). */
  function LeadingDigits(s: string): (d: string)
    ensures AllDigits(d) && |d| <= |s| && d == s[..|d|]
    ensures |d| == |s| || !IsDigit(s[|d|])
  {
    if s != [] && IsDigit(s[0]) then
      var d := LeadingDigits(s[1..]);
      [s[0]] + d
    else []
  }

  /** A digit run followed by a non-digit is exactly the leading digit run. */
  lemma {:induction false} LeadingDigitsOf(d: string, rest: string)
    requires AllDigits(d)
    requires rest == [] || !IsDigit(rest[0])
    ensures LeadingDigits(d + rest) == d
  {
    if d == [] {
      assert d + rest == rest;
    } else {
      assert (d + rest)[1..] == d[1..] + rest;
      LeadingDigitsOf(d[1..], rest);
      assert d == [d[0]] + d[1..];
    }
  }

  /** The longest run of digits that ends `s`. */
  function TrailingDigits(s: string): (d: string)
    ensures AllDigits(d) && |d| <= |s| && d == s[|s| - |d|..]
    ensures |d| == |s| || !IsDigit(s[|s| - |d| - 1])
  {
    if s != [] && IsDigit(s[|s| - 1]) then
      var d := TrailingDigits(s[..|s| - 1]);
      d + [s[|s| - 1]]
    else []
  }

  /** A digit run that follows a non-digit is exactly the trailing digit run. */
  lemma {:induction false} TrailingDigitsOf(p: string, d: string)
    requires AllDigits(d)
    requires p == [] || !IsDigit(p[|p| - 1])
    ensures TrailingDigits(p + d) == d
  {
    if d == [] {
      assert p + d == p;
    } else {
      var init, last := d[..|d| - 1], d[|d| - 1];
      assert d == init + [last];
      assert p + d == (p + init) + [last];
      assert AllDigits(init) by {
        assert forall i :: 0 <= i < |init| ==> init[i] == d[i];
      }
      TrailingDigitsSnoc(p + init, last);
      TrailingDigitsOf(p, init);
    }
  }

  /** One step of the trailing run: a digit appended extends it. */
  lemma TrailingDigitsSnoc(s: string, c: char)
    requires IsDigit(c)
    ensures TrailingDigits(s + [c]) == TrailingDigits(s) + [c]
  {
    assert (s + [c])[..|s|] == s;
  }
}

=== FILE: user.dfy ===
/**
 * `parse_user` of ramenbot/spiders/ramendb.py: a user page becomes a
 * `UserItem` holding the user's id (from the page URL), profile texts, and two
 * optional blocks that are filled only when the page shows exactly the
 * expected number of cells.
 */
module User {
  import opened Base
  import opened Text
  import opened Items
  import opened Normalize
  import opened Guard

  /** A user page, as its selectors see it. */
  datatype UserPage = UserPage(
    response: Response,
    name: Option<string>,          // .profile > h2::text
    properties: Option<string>,    // .profile > div.props::text
    description: Option<string>,   // .profile > p.comment::text
    summaryCells: seq<string>,     // .spct table.key-value td::text
    countCells: seq<string>)       // .spct table.counts tr.value td *::text

  /** The count cells with their thousands separators removed. */
  function CountsOf(cells: seq<string>): (counts: seq<string>)
    ensures |counts| == |cells|
    ensures forall i :: 0 <= i < |cells| ==> ',' !in counts[i] && counts[i] == Remove(cells[i], ',')
  {
    seq(|cells|, i requires 0 <= i < |cells| => Remove(cells[i], ','))
  }

  /** The fields every scraped user item has. */
  const ProfileKeys: set<string> := {"user_id", "name", "properties", "description"}

  /** The fields of the summary block. */
  const SummaryKeys: set<string> := {"average_score", "last_review_date"}

  /** The fields of the counts block. */
  const CountKeys: set<string> := {"review_count", "review_business_count", "like_count", "iine_count"}

  /** All three groups are fields `UserItem` declares, and no field is in two of them. */
  lemma UserKeysDeclared()
    ensures ProfileKeys + SummaryKeys + CountKeys <= UserItemFields
    ensures ProfileKeys !! SummaryKeys && ProfileKeys !! CountKeys && SummaryKeys !! CountKeys
  {
  }

  /** The id and profile texts of a user. */
  function ProfileFields(page: UserPage, id: int): (m: Item)
    ensures m.Keys == ProfileKeys
  {
    map[
      "user_id" := Int(id),
      "name" := OptStr(page.name),
      "properties" := OptStr(page.properties),
      "description" := OptStr(page.description)
    ]
  }

  /** The summary block: present only for exactly two cells. */
  function SummaryFields(cells: seq<string>): (m: Item)
    ensures m.Keys == if |cells| == 2 then SummaryKeys else {}
  {
    if |cells| == 2 then
      map[
        "average_score" := FloatOf(RStrip(cells[0], {'点'})),
        "last_review_date" := Str(StripSpace(cells[1]))
      ]
    else map[]
  }

  /** The counts block: present only for exactly four cells. */
  function CountFields(cells: seq<string>): (m: Item)
    ensures m.Keys == if |cells| == 4 then CountKeys else {}
  {
    var counts := CountsOf(cells);
    if |counts| == 4 then
      map[
        "review_count" := ConvertToIntIfInt(Some(counts[0])),
        "review_business_count" := ConvertToIntIfInt(Some(counts[1])),
        "like_count" := ConvertToIntIfInt(Some(counts[2])),
        "iine_count" := ConvertToIntIfInt(Some(counts[3]))
      ]
    else map[]
  }

  /** Assigning the two summary values one after the other adds the summary block. */
  lemma SummaryFieldsUpdate(item: Item, cells: seq<string>)
    requires |cells| == 2
    ensures item["average_score" := FloatOf(RStrip(cells[0], {'点'}))]
          ["last_review_date" := Str(StripSpace(cells[1]))]
      == item + SummaryFields(cells)
  {
  }

  /** Assigning the four counts one after another adds the counts block. */
  lemma CountFieldsUpdate(item: Item, cells: seq<string>)
    requires |cells| == 4
    ensures var counts := CountsOf(cells);
      item["review_count" := ConvertToIntIfInt(Some(counts[0]))]
          ["review_business_count" := ConvertToIntIfInt(Some(counts[1]))]
          ["like_count" := ConvertToIntIfInt(Some(counts[2]))]
          ["iine_count" := ConvertToIntIfInt(Some(counts[3]))]
      == item + CountFields(cells)
  {
  }

  /** The user item of a page with id `id`. */
  function UserItemOf(page: UserPage, id: int): (m: Item)
    ensures ProfileKeys <= m.Keys
    ensures m["user_id"] == Int(id)
  {
    ProfileFields(page, id) + SummaryFields(page.summaryCells) + CountFields(page.countCells)
  }

  /** A user item only has declared fields; the summary fields are present exactly
      when the summary table has two cells, the count fields exactly when the counts
      table has four; and the three groups do not overwrite one another. */
  lemma UserItemKeys(page: UserPage, id: int)
    ensures UserItemOf(page, id).Keys ==
      ProfileKeys +
      (if |page.summaryCells| == 2 then SummaryKeys else {}) +
      (if |page.countCells| == 4 then CountKeys else {})
    ensures UserItemOf(page, id).Keys <= UserItemFields
  {
    UserKeysDeclared();
  }

  /** The values of the summary block: the average score without its 点 unit and
      the stripped last review date. */
  lemma UserSummaryValues(page: UserPage, id: int)
    requires |page.summaryCells| == 2
    ensures UserItemOf(page, id)["average_score"] == FloatOf(RStrip(page.summaryCells[0], {'点'}))
    ensures UserItemOf(page, id)["last_review_date"] == Str(StripSpace(page.summaryCells[1]))
  {
    UserKeysDeclared();
    assert "average_score" !in CountKeys && "last_review_date" !in CountKeys;
  }

  /** The values of the counts block: each cell without separators, as an integer
      when it spells one. */
  lemma UserCountValues(page: UserPage, id: int, k: nat)
    requires |page.countCells| == 4 && k < 4
    ensures var field := ["review_count", "review_business_count", "like_count", "iine_count"][k];
      UserItemOf(page, id)[field] == ConvertToIntIfInt(Some(Remove(page.countCells[k], ',')))
  {
    var fields := ["review_count", "review_business_count", "like_count", "iine_count"];
    var field := fields[k];
    var counts := CountFields(page.countCells);
    var c := CountsOf(page.countCells);
    var front := ProfileFields(page, id) + SummaryFields(page.summaryCells);
    assert field in counts;
    assert UserItemOf(page, id) == front + counts;
    assert (front + counts)[field] == counts[field];
    if k == 0 {
      assert counts[field] == ConvertToIntIfInt(Some(c[0]));
    } else if k == 1 {
      assert counts[field] == ConvertToIntIfInt(Some(c[1]));
    } else if k == 2 {
      assert counts[field] == ConvertToIntIfInt(Some(c[2]));
    } else {
      assert counts[field] == ConvertToIntIfInt(Some(c[3]));
    }
  }

  /**
   * `parse_user`. A page without the site header is fetched again; a URL with no
   * `u/<digits>` raises `IndexError`; otherwise the page becomes its user item.
   */
  method ParseUser(page: UserPage) returns (r: Result<Outcome>)
    ensures !IsRamendb(page.response) ==> r == Ok(RefetchOf(page.response))
    ensures IsRamendb(page.response) && ExtractUserId(Some(page.response.url)).Err? ==> r == Err(IndexError)
    ensures IsRamendb(page.response) && ExtractUserId(Some(page.response.url)).Ok? ==>
      r == Ok(Scraped(UserItemOf(page, ExtractUserId(Some(page.response.url)).value)))
  {
    if !IsRamendb(page.response) {
      return Ok(RefetchOf(page.response));
    }
    var userId := ExtractUserId(Some(page.response.url));
    if userId.Err? {
      return Err(userId.error);
    }
    var user: Item := map[];
    user := user["user_id" := Int(userId.value)];
    user := user["name" := OptStr(page.name)];
    user := user["properties" := OptStr(page.properties)];
    user := user["description" := OptStr(page.description)];
    assert user == ProfileFields(page, userId.value);

    var metadata := page.summaryCells;
    if |metadata| == 2 {
      ghost var before := user;
      user := user["average_score" := FloatOf(RStrip(metadata[0], {'点'}))];
      user := user["last_review_date" := Str(StripSpace(metadata[1]))];
      SummaryFieldsUpdate(before, metadata);
    } else {
      assert user == user + SummaryFields(metadata);
    }
    assert user == ProfileFields(page, userId.value) + SummaryFields(page.summaryCells);

    metadata := CountsOf(page.countCells);
    if |metadata| == 4 {
      ghost var before := user;
      user := user["review_count" := ConvertToIntIfInt(Some(metadata[0]))];
      user := user["review_business_count" := ConvertToIntIfInt(Some(metadata[1]))];
      user := user["like_count" := ConvertToIntIfInt(Some(metadata[2]))];
      user := user["iine_count" := ConvertToIntIfInt(Some(metadata[3]))];
      CountFieldsUpdate(before, page.countCells);
    } else {
      assert user == user + CountFields(page.countCells);
    }
    return Ok(Scraped(user));
  }
}
